=== FILE: README.md ===
# Greeting page logic, in Dafny

This project models the logic behind a New Year greeting page: three browser
scripts, `js/interactions.js`, `js/enhanced-features.js` and
`js/animations.js`. It leaves out the DOM and canvas work and keeps the
decisions the scripts make. Those decisions are:

- the contact form's validators (name, e-mail, message) and its submit rule;
- the wish wall, where a wish is checked for length and put on top;
- the saved wishes: save, load and delete, kept in storage as a list;
- the resolution cards: a click adds 10 and wraps to 0 past 100, with milestones at 50 and 100;
- the quote carousel: a wrapped index, the active quote and dot, and swipe classification;
- the mobile menu, the music switch and the dark/light theme switch;
- the fireworks show:
  - the on/off state and the frame requests;
  - each firework's five-position trail and the test that makes it burst;
  - the burst size and shape, and each particle's fade;
  - the two backward loops of `animate` that splice burst fireworks and faded particles out of their lists.

Objects whose fields the scripts update in place are classes:

- the wall, the wish store and the resolution board;
- the carousel, the menu, the music and theme switches;
- the celebration state, a frame loop, a firework and a particle.

The pure parts are functions. These include `trim`, the validators, the
progress step, the index wrap, the swipe rule, the theme choice and the list
filters. Each method is proved against such a function or against an
invariant of its class.

The scripts load saved state when they set up: `initWishesStorage` calls `loadWishes` and
`initResolutionsStorage` calls `loadResolutionProgress`. In the model that
setup is the constructor followed by the load: `WishStorage.WishStore.constructor`
then `LoadWishes`, and `ResolutionStorage.ResolutionBoard.constructor` then
`LoadResolutionProgress`.

Randomness, the clock, the device type, the canvas size and the browser's
autoplay decision are parameters. So are `sanitizeInput` and `toLowerCase`,
which belong to code this model does not include. Doubles are modelled as
reals.

Module by module:

- `Text` holds `String.prototype.trim`, over the ECMAScript white-space and line-terminator set.
- `Validation` gives the e-mail grammar twice:
  - as the regular expression reads, which is the "valid e-mail address" production of the WHATWG HTML Living Standard, section 4.10.5.1.5;
  - as a scanning checker.

  `EmailShapeIsRegex` proves that the two agree on every string.
- `FireworksShow` describes the splicing loops with `Keep`, the flagged entries in order, and `Dropped`, the others as a backward walk meets them.

## Model

| member | source | states |
|---|---|---|
| `Text.Trim` | js/interactions.js:361 | the result has no white space at either end and is no longer than the input |
| `Text.TrimStart` | js/interactions.js:361 | dropping leading white space never lengthens a string |
| `Text.TrimEnd` | js/interactions.js:361 | dropping trailing white space never lengthens a string |
| `Text.TrimStartSuffix` | js/interactions.js:361 | TrimStart returns the suffix starting at the first non-space, and all it drops is white space |
| `Text.TrimEndPrefix` | js/interactions.js:361 | TrimEnd returns the prefix ending at the last non-space, and all it drops is white space |
| `Text.TrimSplit` | js/interactions.js:361 | every string is its trimmed form with only white space before and after it |
| `Text.TrimStartOfSpaces` | js/interactions.js:361 | leading white space does not change what TrimStart returns |
| `Text.TrimEndOfSpaces` | js/interactions.js:361 | trailing white space does not change what TrimEnd returns |
| `Text.TrimStartAppend` | js/interactions.js:361 | once a non-space is met, TrimStart keeps everything after it |
| `Text.BlankTrimsToEmpty` | js/interactions.js:361 | a string of white space alone trims to the empty string |
| `Text.TrimPadding` | js/interactions.js:361 | padding a string with white space on either side leaves its trimmed form unchanged |
| `Text.TrimOfTrimmed` | js/interactions.js:361 | trim leaves a string without white space at its ends as it is |
| `Text.TrimIdempotent` | js/interactions.js:361 | trimming twice is trimming once |
| `Validation.IndexOf` | js/interactions.js:387 | the first position of a character, or the length when it is absent; nothing before it is that character |
| `Validation.LabelHasNoDot` | js/interactions.js:387 | a domain label holds no dot, so the first dot follows the first label |
| `Validation.DomainShapeIsRegex` | js/interactions.js:387 | the scanning domain checker accepts exactly the domains the regular expression matches |
| `Validation.DomainShapeMatches` | js/interactions.js:387 | every domain the checker accepts is matched by `label(\.label)*` |
| `Validation.RegexDomainPassesShape` | js/interactions.js:387 | every domain `label(\.label)*` matches is accepted by the checker |
| `Validation.EmailShapeIsRegex` | js/interactions.js:387 | the scanning address checker accepts exactly the strings the regular expression matches |
| `Validation.EmailShapeMatches` | js/interactions.js:387 | an address the checker accepts matches `local+@domain` |
| `Validation.RegexMatchPassesShape` | js/interactions.js:387 | an address matching `local+@domain` at any split is accepted by the checker (the local part holds no '@') |
| `Validation.NameAcceptance` | js/interactions.js:358-371 | a name is accepted exactly when its text without padding has 2 to 50 characters, whatever they are |
| `Validation.MessageAcceptance` | js/interactions.js:402-411 | a message is accepted exactly when its text without padding has 10 to 1000 characters |
| `Validation.EmailAcceptance` | js/interactions.js:378-395 | an address is accepted exactly when its text without padding has 5 to 100 characters, matches the grammar and holds no ".." |
| `Validation.BlankFailsAll` | js/interactions.js:358-411 | the empty string and white space alone fail all three validators |
| `Validation.ValidateName` | js/interactions.js:358-371 | an accepted name has at least 2 characters as typed (NameAcceptance gives the exact window) |
| `Validation.ValidateEmail` | js/interactions.js:378-395 | an accepted address has at least 5 characters as typed (EmailAcceptance gives the exact rule) |
| `Validation.ValidateMessage` | js/interactions.js:402-411 | an accepted message has at least 10 characters as typed (MessageAcceptance gives the exact window) |
| `ContactForm.CheckForm` | js/interactions.js:286-320 | the form is valid exactly when name, message, and a non-empty e-mail pass; exactly the failing fields show their error |
| `ContactForm.SubmitContactForm` | js/interactions.js:460-496 | nothing is sent exactly without the controls; with them the name is rejected exactly when the sanitized trimmed name is outside 2..50, the message exactly when the name passed and the sanitized trimmed message is outside 10..1000; an opened mail carries the sanitized values, with the placeholder exactly when the sanitized address is empty |
| `ContactForm.HandleSubmit` | js/interactions.js:283-325 | the second step runs exactly when the form is valid, which is exactly when no error is shown |
| `ContactForm.EmptyEmailNeverBlocks` | js/interactions.js:311-314 | with an empty e-mail field only the name and the message decide |
| `ContactForm.BlankEmailBlocks` | js/interactions.js:311-314 | a non-empty e-mail field of white space alone blocks the form |
| `ContactForm.SecondCheckAgrees` | js/interactions.js:473-488 | with a length-keeping sanitizer, a form that passed the first checks always reaches the mail composer |
| `WishWall.PickEmoji` | js/interactions.js:53-54 | the drawn emoji is one of the six |
| `WishWall.CheckWish` | js/interactions.js:40-48 | an accepted wish has 3 to 200 characters as typed, and a text of fewer than 3 characters is too short |
| `WishWall.TrimmedWishWindow` | js/interactions.js:40-48 | for an already trimmed text, accepted exactly at 3..200 characters and too short exactly below 3 |
| `WishWall.PaddedWishWindow` | js/interactions.js:40-48 | padding counts toward the 200 maximum but not toward the 3 minimum |
| `WishWall.Wall.constructor` | js/interactions.js:36-37 | an empty wall and an empty field |
| `WishWall.Wall.AddWish` | js/interactions.js:35-80 | without a wall nothing happens; otherwise the verdict is returned, and an accepted wish goes on top with its emoji and sanitized text |
| `WishWall.Wall.SubmitClick` | js/interactions.js:14-22 | a blank field is ignored; otherwise the field is emptied and, with a wall, the trimmed text gets its verdict and an accepted card goes on top; without a wall the verdict is None and the cards stay |
| `Progress.NextProgress` | js/interactions.js:126-129 | a click gives old + 10 while that is at most 100, and 0 whenever old + 10 passes 100; never above 100 |
| `Progress.StepOnGrid` | js/interactions.js:126-129 | values stay multiples of ten in 0..100; 100 is reached exactly from 90 and 0 exactly from 100 |
| `Progress.ClicksFromZero` | js/interactions.js:126-129 | from 0 the value after k clicks is 10 * (k mod 11) |
| `Progress.ElevenClicksCycle` | js/interactions.js:126-129 | eleven clicks bring any grid value back |
| `Progress.ClicksShift` | js/interactions.js:126-129 | below 100 each click adds exactly 10 |
| `Progress.ClicksCompose` | js/interactions.js:126-129 | a + b clicks are a clicks followed by b clicks |
| `Progress.ResolutionCard.constructor` | js/interactions.js:121-124 | a card with its bar and its current width |
| `Progress.ResolutionCard.Click` | js/interactions.js:120-141 | without a bar nothing changes; otherwise an unreadable width counts as 0, the width steps, and the celebration fires exactly at 100 |
| `QuoteCarousel.WrapIndex` | js/interactions.js:226-228 | the index lies in [0, n) and an index already in range is kept |
| `QuoteCarousel.WrapStep` | js/interactions.js:247-248 | one step either way from a shown quote is arithmetic modulo n |
| `QuoteCarousel.ForwardCountsUp` | js/interactions.js:258-259 | forward steps that stay before the end count up |
| `QuoteCarousel.ForwardCompose` | js/interactions.js:258-259 | a + b forward steps are a steps followed by b steps |
| `QuoteCarousel.ForwardCycles` | js/interactions.js:258-259 | n forward steps from any quote return to it |
| `QuoteCarousel.JumpPastEndResets` | js/interactions.js:227 | a jump past the end lands on the first quote, not modulo n |
| `QuoteCarousel.SwipeDirection` | js/interactions.js:200-212 | a mainly horizontal move of more than 50 pixels always changes the quote, -1 for a move right and +1 for a move left; nothing else does |
| `QuoteCarousel.ShortOrVerticalSwipeIgnored` | js/interactions.js:204 | a move of 50 pixels or less, or one at least as vertical as horizontal, does nothing |
| `QuoteCarousel.SwipeMirror` | js/interactions.js:204-211 | mirroring left and right reverses the direction; mirroring up and down changes nothing |
| `QuoteCarousel.Carousel.constructor` | js/interactions.js:152-164 | one dot per quote, only the first active; the index starts at 0 |
| `QuoteCarousel.Carousel.ShowQuote` | js/interactions.js:220-241 | with no quotes nothing changes; otherwise the wrapped index is current and exactly its quote and dot are active |
| `QuoteCarousel.Carousel.ChangeQuote` | js/interactions.js:247-251 | shows the quote at the current index plus the direction, wrapped |
| `QuoteCarousel.SwipeTracker.constructor` | js/interactions.js:185-188 | all four positions start at 0 |
| `QuoteCarousel.SwipeTracker.TouchStart` | js/interactions.js:191-194 | records the start point |
| `QuoteCarousel.SwipeTracker.TouchEnd` | js/interactions.js:196-213 | records the end point; a swipe changes the quote by its direction, anything else changes nothing; with no quotes even a swipe changes nothing, because `showQuote` returns first |
| `Menu.MobileMenu.constructor` | js/enhanced-features.js:4-8 | the three flags start cleared and equal |
| `Menu.MobileMenu.ToggleClick` | js/enhanced-features.js:9-13 | all three flags flip |
| `Menu.MobileMenu.Close` | js/enhanced-features.js:17-21 | all three flags are cleared |
| `Menu.MobileMenu.Click` | js/enhanced-features.js:8-31 | the flags stay equal; the toggle flips them, a link or an outside click clears them, a click inside the list keeps them, and nothing is installed without both elements |
| `Music.MusicToggle.constructor` | js/enhanced-features.js:37-51 | playing after start exactly when "true" was saved, the audio exists and the browser allows it |
| `Music.MusicToggle.PlayMusic` | js/enhanced-features.js:61-70 | when the audio starts: playing, sound-on icon, "true" saved; otherwise nothing changes |
| `Music.MusicToggle.PauseMusic` | js/enhanced-features.js:72-77 | silent, sound-off icon, "false" saved |
| `Music.MusicToggle.Click` | js/enhanced-features.js:53-59 | pauses when playing, otherwise tries to play; the icon and the saved value always agree with the playing state |
| `Theme.OrDark` | js/enhanced-features.js:86 | a missing or empty value reads as "dark"; any other value is kept |
| `Theme.Toggled` | js/enhanced-features.js:90-91 | "light" exactly when the current theme reads as "dark", otherwise "dark" |
| `Theme.IconFor` | js/enhanced-features.js:109 | the moon exactly for "dark" |
| `Theme.ToggleTwice` | js/enhanced-features.js:90-92 | two clicks restore "dark" and "light"; any other value ends as "light" |
| `Theme.ThemeToggle.constructor` | js/enhanced-features.js:81-87 | the saved theme, or "dark", is applied and the icon matches it |
| `Theme.ThemeToggle.ApplyTheme` | js/enhanced-features.js:106-111 | the theme is set and the icon matches it |
| `Theme.ThemeToggle.Click` | js/enhanced-features.js:89-93 | the toggled theme is applied and saved |
| `WishStorage.Reverse` | js/enhanced-features.js:187 | reversing keeps the length |
| `WishStorage.Without` | js/enhanced-features.js:195 | filtering never lengthens the list |
| `WishStorage.RemoveFirst` | js/enhanced-features.js:198-201 | removing the first card of an id removes at most one card |
| `WishStorage.ReverseAppend` | js/enhanced-features.js:187 | reversing a concatenation reverses and swaps the parts |
| `WishStorage.ReverseReverse` | js/enhanced-features.js:187 | reversing twice gives the list back |
| `WishStorage.WithoutAppend` | js/enhanced-features.js:195 | filtering distributes over concatenation |
| `WishStorage.CountAppend` | js/enhanced-features.js:195 | counts add over concatenation |
| `WishStorage.WithoutRemovesExactly` | js/enhanced-features.js:195 | the filter removes every wish with the id, keeps the count of every other id, and leaves a list without the id unchanged |
| `WishStorage.WithoutIdempotent` | js/enhanced-features.js:193-196 | deleting twice is deleting once |
| `WishStorage.ReverseWithout` | js/enhanced-features.js:193-201 | filtering commutes with the display's reversed order |
| `WishStorage.CountReverse` | js/enhanced-features.js:187 | reversing keeps every id's count |
| `WishStorage.RemoveFirstIsWithout` | js/enhanced-features.js:195-201 | with at most one wish per id, removing the first card is the filter |
| `WishStorage.AppendFreshKeepsUnique` | js/enhanced-features.js:133-139 | appending a wish with an unused id keeps ids unique |
| `WishStorage.WishStore.Wishes` | js/enhanced-features.js:205-211 | missing or unparsable storage reads as the empty list |
| `WishStorage.WishStore.constructor` | js/enhanced-features.js:115-118 | the elements present, the stored value, an empty display and field |
| `WishStorage.WishStore.AddWishToDisplay` | js/enhanced-features.js:169-191 | with a display the wish goes on top; otherwise nothing changes |
| `WishStorage.WishStore.LoadWishes` | js/enhanced-features.js:161-167 | the display shows the saved list newest first |
| `WishStorage.WishStore.SaveWish` | js/enhanced-features.js:128-146 | blank or missing input does nothing; otherwise exactly one wish is appended after the unchanged old ones, it is shown on top when there is a display (the display is otherwise unchanged), and the field is emptied; the display stays in step and ids stay unique |
| `WishStorage.WishStore.DeleteWish` | js/enhanced-features.js:193-203 | the saved list loses exactly the wishes with the id, the first card with it is removed, and the display stays in step |
| `WishStorage.SameMillisecondDesyncs` | js/enhanced-features.js:134 | two wishes saved in one millisecond share an id; one delete empties the list but leaves a card |
| `ResolutionStorage.Milestone.ParticleCount` | js/enhanced-features.js:261 | 150 confetti at completion, 75 halfway |
| `ResolutionStorage.ValueAt` | js/enhanced-features.js:245 | a missing entry reads as 0 |
| `ResolutionStorage.Incremented` | js/enhanced-features.js:244-250 | only the clicked entry changes, to its step; the keys become the old keys plus that index |
| `ResolutionStorage.MilestoneAt` | js/enhanced-features.js:258-266 | halfway exactly at 50, completed exactly at 100, nothing otherwise |
| `ResolutionStorage.MilestoneSchedule` | js/enhanced-features.js:247-258 | from nothing, the k-th click is halfway exactly when k mod 11 is 5 and completed exactly when it is 10 |
| `ResolutionStorage.ResolutionBoard.Progress` | js/enhanced-features.js:270-276 | missing or unparsable storage reads as the empty map |
| `ResolutionStorage.ResolutionBoard.constructor` | js/enhanced-features.js:215-216 | one bar per card, all at 0 |
| `ResolutionStorage.ResolutionBoard.LoadResolutionProgress` | js/enhanced-features.js:231-241 | every card with a bar shows its saved value; the others are untouched |
| `ResolutionStorage.ResolutionBoard.IncrementProgress` | js/enhanced-features.js:243-268 | the saved map is the incremented one, the card's bar shows the new value, no other bar changes, and the milestone matches the new value |
| `FireworkEntities.ScaleDraw` | js/animations.js:97 | a draw scales a length to somewhere between 0 and that length |
| `FireworkEntities.TargetBand` | js/animations.js:99 | the target lies between 10% and 60% of the height |
| `FireworkEntities.Column` | js/animations.js:97 | the launch column lies on the canvas |
| `FireworkEntities.TargetHeight` | js/animations.js:99 | the burst height lies between 10% and 60% of the canvas height |
| `FireworkEntities.PickColor` | js/animations.js:93-104 | the colour is one of the seven |
| `FireworkEntities.LastN` | js/animations.js:111-112 | the last n entries, or all of them when there are fewer |
| `FireworkEntities.PushTrailKeepsLatest` | js/animations.js:111-112 | push-then-shift on the last five positions gives the last five positions |
| `FireworkEntities.PushTrailBounded` | js/animations.js:111-112 | the newest position ends the trail, a trail of at most five stays at most five, and only the oldest entry can be dropped |
| `FireworkEntities.AdvanceMotion` | js/animations.js:109-117 | an update keeps vx, adds exactly the gravity to vy, moves by the new speed, and records the position it left at the end of the trail |
| `FireworkEntities.AdvanceTracked` | js/animations.js:109-117 | an update keeps the trail equal to the last five recorded positions, never more than five |
| `FireworkEntities.Firework.constructor` | js/animations.js:96-107 | bottom of the canvas, a column on it, a target between 10% and 60% of the height, a palette colour, an empty trail |
| `FireworkEntities.Firework.Update` | js/animations.js:109-121 | trail push and shift, gravity, a step; the trail invariant is kept; the result is true exactly when vy >= 0 or y <= targetY |
| `FireworkEntities.BurstSize` | js/animations.js:206-207 | 50 exactly on a mobile device, 150 otherwise |
| `FireworkEntities.BurstKind` | js/animations.js:208 | a heart exactly when not mobile and the draw is below 0.5; never on mobile |
| `FireworkEntities.AlphaAfterIsLinear` | js/animations.js:167-181 | after k updates alpha is 1 - k * decay |
| `FireworkEntities.ParticleLifetime` | js/animations.js:170-181 | every particle is still visible after 55 updates and gone after 125 (over the reals; at decay 0.008 the 125 bound is met exactly) |
| `FireworkEntities.Particle.constructor` | js/animations.js:147-173 | opaque at the burst point, decay in [0.008, 0.018), size in [1, 4); a heart particle starts at rest |
| `FireworkEntities.Particle.Update` | js/animations.js:175-182 | friction, gravity and a step; alpha drops by decay and so strictly decreases |
| `FireworksShow.KeepDroppedSizes` | js/animations.js:252-266 | every entry is either kept or dropped |
| `FireworksShow.KeepWithin` | js/animations.js:252-266 | every kept entry is a flagged one |
| `FireworksShow.KeepComplete` | js/animations.js:252-266 | every flagged entry is kept |
| `FireworksShow.DroppedWithin` | js/animations.js:252-258 | every dropped entry is an unflagged one |
| `FireworksShow.DroppedComplete` | js/animations.js:252-258 | every unflagged entry is dropped |
| `FireworksShow.KeepDistinct` | js/animations.js:252-266 | filtering keeps a list free of repeats |
| `FireworksShow.KeepShrinks` | js/animations.js:252-266 | filtering never lengthens a list and brings in no new entry |
| `FireworksShow.SpliceStep` | js/animations.js:256-264 | splicing index i out, or keeping it, extends the kept suffix by one step of the backward walk |
| `FireworksShow.AliveFlags` | js/animations.js:263 | flags exactly the particles with alpha > 0 |
| `FireworksShow.ClimbFlags` | js/animations.js:254 | flags exactly the fireworks that have not burst |
| `FireworksShow.CreateParticles` | js/animations.js:205-236 | exactly 50 or 150 fresh particles appended after the unchanged old ones, all opaque at the burst point in its colour, of the burst's shape |
| `FireworksShow.AddFirework` | js/animations.js:248-250 | a fresh firework joins the end; the list stays free of repeats and every trail invariant holds |
| `FireworksShow.Launch` | js/animations.js:250 | `new Firework()` gives a fresh firework with an empty, valid trail |
| `FireworksShow.WalkStep` | js/animations.js:253-257 | one turn of the loop updates exactly the firework at the index, and splices it out and returns it exactly when its update reports the burst |
| `FireworksShow.WalkDone` | js/animations.js:252-258 | after every firework has advanced once, the flags taken from the snapshots are the climb flags now, and every trail is still tracked |
| `FireworksShow.WalkFireworks` | js/animations.js:252-258 | every firework is updated exactly once; the list left is the climbing ones in order, the burst ones are returned in walk order |
| `FireworksShow.ClimbingSurvivors` | js/animations.js:252-258 | the list the walk leaves is free of repeats, keeps every trail, holds no burst firework, and is a no longer list of fireworks from before |
| `FireworksShow.BurstAreExploded` | js/animations.js:254-256 | the returned fireworks are exactly the burst ones, and every firework is either kept or returned |
| `FireworksShow.FireworkLoop` | js/animations.js:252-258 | the burst ones are returned exactly, in walk order; the list left holds every other firework once, none burst, all from before, with valid trails |
| `FireworksShow.CreateBursts` | js/animations.js:254-255 | one burst of 50 or 150 fresh particles per burst firework, appended after the unchanged old ones; the k-th block is opaque, at the k-th burst firework's position, in its colour and of the k-th drawn shape |
| `FireworksShow.PruneParticles` | js/animations.js:260-266 | every particle fades by its decay exactly once; the ones left are the visible ones in their order |
| `FireworksShow.VisibleSurvivors` | js/animations.js:260-266 | the list the particle loop leaves is free of repeats, all visible and all taken from the list before |
| `FireworksShow.ParticleLoop` | js/animations.js:260-266 | the list left is exactly the visible particles in order, free of repeats, all from before |
| `FireworksShow.Celebration.constructor` | js/animations.js:4-5 | the show is off with no frame pending |
| `FireworksShow.Celebration.Resize` | js/animations.js:45-48 | with a canvas its size follows the window |
| `FireworksShow.Celebration.RequestFrame` | js/animations.js:268 | a handle never given out before, now pending |
| `FireworksShow.Celebration.StopFireworks` | js/animations.js:277-294 | the show is off, its frame cancelled, the button hidden, the canvas cleared; a second call changes nothing |
| `FireworksShow.Celebration.ShowStopButton` | js/animations.js:63-74 | the button exists and is shown |
| `FireworksShow.Celebration.LaunchFireworks` | js/animations.js:82-90 | without a canvas nothing changes; otherwise the show is on, a new loop runs its first frame from empty lists and requests exactly one frame; after it the loop holds at most one firework, and every firework and particle in it is new |
| `FireworksShow.Celebration.StartCelebration` | js/animations.js:54-61 | stops a running show, otherwise launches it and shows the button; at most one frame stays pending |
| `FireworksShow.Celebration.LaunchAutoFireworks` | js/animations.js:299-302 | launches without looking at the state, so a second frame can be pending beside a running show |
| `FireworksShow.FrameLoop.constructor` | js/animations.js:89-90 | empty firework and particle lists, nothing scheduled |
| `FireworksShow.FrameLoop.Spawn` | js/animations.js:248-250 | a new firework joins exactly when the draw is below 0.05; every firework is an old one or the new one |
| `FireworksShow.FrameLoop.FireworkPass` | js/animations.js:252-258 | after the firework loop no firework left has burst, and the list left is no longer and holds only fireworks from before |
| `FireworksShow.FrameLoop.BurstPass` | js/animations.js:254-255 | the bursts' particles are appended after the unchanged old ones, the k-th block opaque at the k-th burst firework's position, in its colour and of the k-th drawn shape |
| `FireworksShow.FrameLoop.ParticlePass` | js/animations.js:260-266 | after the particle loop every particle left is visible and was in the list before |
| `FireworksShow.FrameLoop.FireworkPhase` | js/animations.js:248-258 | the launch and the firework loop leave no burst firework, add at most one firework, and every firework and particle is an old one or a new one |
| `FireworksShow.FrameLoop.DrawFrame` | js/animations.js:248-266 | a frame leaves no burst firework and no faded particle, keeps the lists free of repeats, adds at most one firework, and brings in no entity that is neither old nor new |
| `FireworksShow.FrameLoop.Animate` | js/animations.js:238-269 | once off: clears the canvas and requests nothing; while on: draws a frame (at most one firework more, every entity old or new) and requests exactly one new frame |
| `FireworksShow.FrameLoop.RunFrame` | js/animations.js:268 | running the pending frame uses its handle up; a running show replaces it with exactly one new one, and at most one frame stays pending |

## Left out

- Floating-point physics is left out. Doubles are reals, and there is no rounding, overflow or NaN.
  - The launch angle, speeds and particle directions (`Math.cos`, `Math.sin`) and the heart curve arrive as already computed velocities.
  - A firework's `brightness` is not modelled. Nothing reads it.
- Rendering is left out: canvas drawing, the fade rectangle, the trail and head strokes, shadows and flicker. Only whether the canvas was last cleared is kept.
- Timers are left out:
  - the carousel's 5-second auto-play and its hover pause (a tick does what `ChangeQuote(1)` does);
  - the 3-second temporary messages;
  - the 30-second stop of `launchAutoFireworks`;
  - the 1-second and 5-second steps after the mail opens;
  - the 10 ms card fade-in;
  - the 400 ms fade-out before a deleted card goes, treated as immediate.
- `requestAnimationFrame` hands out handles starting at 1. A handle of 0, which `if (animationFrameId)` would treat as none, never arises.
- `localStorage` and JSON are modelled by their parsed values only. Missing or unparsable data is `None`. Values of the wrong shape are not modelled: a non-array wish list, a non-numeric progress entry.
- `Date.now()` and `toISOString()` are parameters. So are `sanitizeInput` and `toLowerCase`, and the `isMobile` helper is a flag.
- String lengths count characters, where JavaScript counts UTF-16 code units.
- The mail link's text and its `encodeURIComponent` encoding are not modelled. The model keeps what is sent: name, address or placeholder, and message.
- The contact form's blur handlers are not modelled. They show or clear one field's error and never submit.
- Decoration is not modelled:
  - confetti, notifications, haptic feedback and analytics events;
  - `initParticles` and the celebration particle animations.
- The music `play()` promise is taken to settle before the next event. The browser's autoplay decision is a parameter.
- The wish-wall submit button gets a handler both from `js/interactions.js` and from `js/enhanced-features.js`. Each is modelled on its own, as `WishWall.Wall.SubmitClick` and `WishStorage.WishStore.SaveWish`; their running one after the other on one click is not.
- The carousel's early return when the dots container is missing is not modelled: the model always makes the dots.
- `FireworksShow.WalkFireworks`: the firework and particle lists are sequences the loops reassign, not arrays spliced in place. A burst's particles are appended after the walk rather than at the moment each firework bursts. The order and the values are the same, because nothing touches a burst firework after its update.
- `FireworksShow.FrameLoop.FireworkPass`: states that no burst firework is left and that the list only loses fireworks. The exact list it leaves, in order, is stated by `FireworksShow.WalkFireworks`, and the burst ones by `FireworksShow.FireworkLoop` and `FireworksShow.BurstAreExploded`.
- `FireworksShow.FireworkLoop`: states which fireworks stay and that each stays once, but not their order. `FireworksShow.WalkFireworks`, which it calls, states the exact list in order. Repeating that list here makes the frame methods that call it too costly to verify.
- `FireworksShow.FrameLoop.ParticlePass`: states that every particle left is visible and was there before. The exact list it leaves is stated by `FireworksShow.ParticleLoop`, which it calls, and each particle's fade by `FireworksShow.PruneParticles`.
- `Validation.ValidateName`, `Validation.ValidateEmail`, `Validation.ValidateMessage`: their own contracts give only a length bound on the text as typed. The exact acceptance rules are the lemmas `Validation.NameAcceptance`, `Validation.EmailAcceptance` and `Validation.MessageAcceptance`.
- `WishWall.CheckWish`: its own contract gives the raw length window. `WishWall.TrimmedWishWindow` and `WishWall.PaddedWishWindow` state the exact rule.
- `Progress.ResolutionCard.Click` and `ResolutionStorage.ResolutionBoard.IncrementProgress`: every resolution card gets both click handlers, one from `js/interactions.js` and one from `js/enhanced-features.js`, so one click runs both and each rewrites the same bar. Each handler is modelled on its own; their combined effect on one click is not.
- `FireworkEntities.Firework.constructor`: states its colour as the pick of its draw. `FireworkEntities.PickColor` proves that the pick is one of the seven colours.

=== FILE: contact_form.dfy ===
/**
 * The contact form of js/interactions.js: the submit handler installed by
 * `initContactForm`, which runs the three validators, shows one error per
 * failing field and, when none failed, hands over to `submitContactForm`,
 * which checks the sanitized values once more and opens a mail composer.
 *
 * `sanitizeInput` (from a helper module that is not part of this model) and
 * `String.prototype.toLowerCase` are parameters.
 */
module ContactForm {
  import opened Text
  import opened Validation
  import opened Wrappers

  /** Which of the form's three error messages are shown (`showError` on `nameError`, `emailError`, `messageError`). */
  datatype ShownErrors = ShownErrors(name: bool, email: bool, message: bool)

  /** What `submitContactForm` does with a form that passed the handler's checks. */
  datatype Submission =
    | NotSent                      // the submit button or the success message is missing
    | NameRejected                 // the sanitized name is outside 2..50 characters
    | MessageRejected              // the sanitized message is outside 10..1000 characters
    | MailOpened(name: string, email: string, message: string)

  /** What the mail body shows when no address was given. */
  const NoEmailGiven: string := "Kh\U{F4}ng cung c\U{1EA5}p"

  /** The form is submitted when name and message are valid and the e-mail field is empty or valid. */
  predicate FormValid(name: string, email: string, message: string) {
    ValidateName(name) && (email == [] || ValidateEmail(email)) && ValidateMessage(message)
  }

  /**
   * The submit handler's checks, after `clearFormErrors` has hidden all three
   * messages: `isValid` starts true and each failing check shows its field's
   * message and clears it. The e-mail is checked only when the raw field is
   * not empty.
   */
  method CheckForm(name: string, email: string, message: string) returns (isValid: bool, shown: ShownErrors)
    ensures isValid <==> FormValid(name, email, message)
    ensures isValid <==> shown == ShownErrors(false, false, false)
    ensures shown.name <==> !ValidateName(name)
    ensures shown.email <==> email != [] && !ValidateEmail(email)
    ensures shown.message <==> !ValidateMessage(message)
  {
    isValid := true;
    shown := ShownErrors(false, false, false);
    if !ValidateName(name) {
      shown := shown.(name := true);
      isValid := false;
    }
    if email != [] && !ValidateEmail(email) {
      shown := shown.(email := true);
      isValid := false;
    }
    if !ValidateMessage(message) {
      shown := shown.(message := true);
      isValid := false;
    }
  }

  /** `submitContactForm`: the second check on the sanitized, trimmed values, then the mail. */
  function SubmitContactForm(name: string, email: string, message: string, hasControls: bool,
                             sanitize: string -> string, lower: string -> string): (s: Submission)
    ensures !hasControls <==> s == NotSent
    ensures hasControls ==> (s == NameRejected <==> !(2 <= |sanitize(Trim(name))| <= 50))
    ensures hasControls ==>
              (s == MessageRejected <==> 2 <= |sanitize(Trim(name))| <= 50 && !(10 <= |sanitize(Trim(message))| <= 1000))
    ensures s.MailOpened? && sanitize(lower(Trim(email))) == [] ==> s.email == NoEmailGiven
    ensures s.MailOpened? ==> 2 <= |s.name| <= 50 && 10 <= |s.message| <= 1000 && s.email != []
    ensures s.MailOpened? ==> s.name == sanitize(Trim(name)) && s.message == sanitize(Trim(message))
    ensures s.MailOpened? && sanitize(lower(Trim(email))) != [] ==> s.email == sanitize(lower(Trim(email)))
  {
    if !hasControls then NotSent
    else
      var n := sanitize(Trim(name));
      var e := sanitize(lower(Trim(email)));
      var m := sanitize(Trim(message));
      if |n| < 2 || |n| > 50 then NameRejected
      else if |m| < 10 || |m| > 1000 then MessageRejected
      else MailOpened(n, if e == [] then NoEmailGiven else e, m)
  }

  /** The whole submit handler: the checks, then the submission when they all pass. */
  method HandleSubmit(name: string, email: string, message: string, hasControls: bool,
                      sanitize: string -> string, lower: string -> string)
    returns (shown: ShownErrors, sent: Option<Submission>)
    ensures sent.Some? <==> FormValid(name, email, message)
    ensures sent.Some? ==> sent.value == SubmitContactForm(name, email, message, hasControls, sanitize, lower)
    ensures sent.Some? <==> shown == ShownErrors(false, false, false)
  {
    var isValid;
    isValid, shown := CheckForm(name, email, message);
    if isValid {
      sent := Some(SubmitContactForm(name, email, message, hasControls, sanitize, lower));
    } else {
      sent := None;
    }
  }

  /** An empty e-mail field never blocks the form: only name and message decide. */
  lemma EmptyEmailNeverBlocks(name: string, message: string)
    ensures FormValid(name, [], message) <==> ValidateName(name) && ValidateMessage(message)
  {
  }

  /** A non-empty e-mail field holding only white space does block the form. */
  lemma BlankEmailBlocks(name: string, email: string, message: string)
    requires email != [] && AllSpace(email)
    ensures !FormValid(name, email, message)
  {
    BlankFailsAll(email);
  }

  /**
   * With a sanitizer that keeps lengths, a form that passed the handler's
   * checks always reaches the mail composer when the page has its controls:
   * the second check rejects nothing the first one accepted. The e-mail plays
   * no part, so only the name and message checks are needed.
   */
  lemma SecondCheckAgrees(name: string, email: string, message: string,
                          sanitize: string -> string, lower: string -> string)
    requires ValidateName(name) && ValidateMessage(message)
    requires forall x :: |sanitize(x)| == |x|
    ensures SubmitContactForm(name, email, message, true, sanitize, lower).MailOpened?
  {
    var n, m := Trim(name), Trim(message);
    assert 2 <= |n| <= 50 && 10 <= |m| <= 1000;
    assert |sanitize(n)| == |n| && |sanitize(m)| == |m|;
  }
}

=== FILE: fireworks_entities.dfy ===
/**
 * The two kinds of object `launchFireworks` in js/animations.js creates: a
 * Firework climbing towards the height where it bursts, with a short trail of
 * the positions it has passed, and a Particle of a burst, which drifts and
 * fades. Their fields are updated in place once per frame.
 *
 * Doubles are modelled as reals. The trigonometry (launch angle, particle
 * directions, the heart curve) and every `Math.random()` draw are inputs:
 * velocities arrive already computed, other draws as numbers in [0, 1).
 */
module FireworkEntities {

  datatype Point = Point(x: real, y: real)

  /** The burst shapes. */
  datatype Kind = Circle | Heart

  /** At most this many trail positions are kept. */
  const TrailLimit: nat := 5
  const Gravity: real := 0.05
  const Friction: real := 0.98

  /** The seven colours a firework can take. */
  const Palette: seq<string> := ["#ff9a9e", "#fecfef", "#ff416c", "#ff4b2b", "#fa709a", "#fee140", "#ffffff"]

  predicate IsDraw(r: real) {
    0.0 <= r < 1.0
  }

  /** A draw scales a non-negative length to somewhere between 0 and that length. */
  lemma ScaleDraw(r: real, w: real)
    requires IsDraw(r) && 0.0 <= w
    ensures 0.0 <= r * w <= w
  {
    assert (1.0 - r) * w >= 0.0;
  }

  /** `Math.random() * (height * 0.5) + height * 0.1` lies between 10% and 60% of the height. */
  lemma TargetBand(r: real, h: real)
    requires IsDraw(r) && 0.0 <= h
    ensures 0.1 * h <= r * (h * 0.5) + h * 0.1 <= 0.6 * h
  {
    ScaleDraw(r, h * 0.5);
  }

  /** `Math.random() * canvas.width`: a launch column on the canvas. */
  function Column(r: real, width: real): (x: real)
    requires IsDraw(r) && 0.0 <= width
    ensures 0.0 <= x <= width
  {
    ScaleDraw(r, width);
    r * width
  }

  /** `Math.random() * (canvas.height * 0.5) + canvas.height * 0.1`: a burst height between 10% and 60% of the canvas height. */
  function TargetHeight(r: real, height: real): (y: real)
    requires IsDraw(r) && 0.0 <= height
    ensures 0.1 * height <= y <= 0.6 * height
  {
    TargetBand(r, height);
    r * (height * 0.5) + height * 0.1
  }

  /** `colors[Math.floor(Math.random() * colors.length)]` */
  function PickColor(draw: real): (c: string)
    requires IsDraw(draw)
    ensures c in Palette
  {
    Palette[(draw * |Palette| as real).Floor]
  }

  // -------------------------------------------------------------------- trails

  /** The last `n` entries of `h` (all of them when there are fewer). */
  function LastN(h: seq<Point>, n: nat): (r: seq<Point>)
    ensures |r| <= n && |r| <= |h|
    ensures |r| == n || |r| == |h|
    ensures r == h[|h| - |r|..]
  {
    if |h| <= n then h else h[|h| - n..]
  }

  /** `trail.push(p); if (trail.length > 5) trail.shift();` */
  function PushTrail(trail: seq<Point>, p: Point): seq<Point> {
    var pushed := trail + [p];
    if |pushed| > TrailLimit then pushed[1..] else pushed
  }

  /** The newest position ends the trail, which never grows past five and only loses its oldest entry. */
  lemma PushTrailBounded(trail: seq<Point>, p: Point)
    ensures |trail| <= TrailLimit ==> |PushTrail(trail, p)| <= TrailLimit
    ensures PushTrail(trail, p) != [] && PushTrail(trail, p)[|PushTrail(trail, p)| - 1] == p
    ensures PushTrail(trail, p) == trail + [p] || PushTrail(trail, p) == trail[1..] + [p]
  {
    if |trail + [p]| > TrailLimit {
      assert (trail + [p])[1..] == trail[1..] + [p];
    }
  }

  /** Pushing then shifting keeps exactly the five most recent positions, oldest first. */
  lemma PushTrailKeepsLatest(history: seq<Point>, p: Point)
    ensures PushTrail(LastN(history, TrailLimit), p) == LastN(history + [p], TrailLimit)
  {
    var h := history + [p];
    if |history| >= TrailLimit {
      assert LastN(history, TrailLimit) + [p] == h[|h| - TrailLimit - 1..];
      assert h[|h| - TrailLimit - 1..][1..] == h[|h| - TrailLimit..];
    } else {
      assert history[|history| - |history|..] == history;
    }
  }

  /** Launch draws: `x` and `targetY` fractions and the colour pick, with the velocity already resolved. */
  datatype LaunchDraws = LaunchDraws(xDraw: real, targetDraw: real, colorDraw: real, vx: real, vy: real) {
    predicate WellFormed() {
      IsDraw(xDraw) && IsDraw(targetDraw) && IsDraw(colorDraw)
    }
  }

  /** A firework's moving parts at one moment, with the positions recorded so far. */
  datatype Flight = Flight(x: real, y: real, vx: real, vy: real, trail: seq<Point>, history: seq<Point>)

  /** What one `update` does to a firework's moving parts. */
  function Advance(s: Flight): Flight {
    var vy := s.vy + Gravity;
    Flight(s.x + s.vx, s.y + vy, s.vx, vy, PushTrail(s.trail, Point(s.x, s.y)), s.history + [Point(s.x, s.y)])
  }

  /**
   * An update keeps the horizontal speed, makes the vertical speed grow
   * (downwards is positive) by exactly the gravity, moves by the new speed,
   * and records the position it left, with the trail ending at it.
   */
  lemma AdvanceMotion(s: Flight)
    ensures Advance(s).vx == s.vx && Advance(s).vy - s.vy == Gravity > 0.0
    ensures Advance(s).x - s.x == Advance(s).vx && Advance(s).y - s.y == Advance(s).vy
    ensures Advance(s).history == s.history + [Point(s.x, s.y)]
    ensures Advance(s).trail[|Advance(s).trail| - 1] == Point(s.x, s.y)
  {
  }

  /** The trail holds the last five recorded positions. */
  predicate Tracked(s: Flight) {
    s.trail == LastN(s.history, TrailLimit)
  }

  /** An update keeps the trail equal to the last five positions, and never longer than five. */
  lemma AdvanceTracked(s: Flight)
    requires Tracked(s)
    ensures Tracked(Advance(s)) && |Advance(s).trail| <= TrailLimit
  {
    PushTrailKeepsLatest(s.history, Point(s.x, s.y));
  }

  class Firework {
    var x: real
    var y: real
    var vx: real
    var vy: real
    const targetY: real
    const color: string
    var trail: seq<Point>
    ghost var history: seq<Point>   // every position `update` has recorded, oldest first

    ghost function Snapshot(): Flight
      reads this
    {
      Flight(x, y, vx, vy, trail, history)
    }

    ghost predicate Valid()
      reads this
    {
      Tracked(Snapshot())
    }

    /** Whether `update` reports the burst: falling again, or at or above the target height. */
    predicate Exploded()
      reads this
    {
      vy >= 0.0 || y <= targetY
    }

    /** Starts at the bottom of the canvas, at a random column, aimed at 10% to 60% of its height from the top. */
    constructor (d: LaunchDraws, width: real, height: real)
      requires d.WellFormed() && 0.0 <= width && 0.0 <= height
      ensures Valid() && trail == [] && history == []
      ensures 0.0 <= x <= width && y == height && vx == d.vx && vy == d.vy
      ensures 0.1 * height <= targetY <= 0.6 * height
      ensures color == PickColor(d.colorDraw)
    {
      x := Column(d.xDraw, width);
      y := height;
      targetY := TargetHeight(d.targetDraw, height);
      vx := d.vx;
      vy := d.vy;
      color := PickColor(d.colorDraw);
      trail := [];
      history := [];
    }

    /** `update`: record the position in the trail, apply gravity, move, and report whether to burst. */
    method Update() returns (exploded: bool)
      modifies this
      ensures Snapshot() == Advance(old(Snapshot()))
      ensures old(Valid()) ==> Valid() && |trail| <= TrailLimit
      ensures exploded <==> Exploded()
    {
      if Valid() {
        AdvanceTracked(Snapshot());
      }
      trail := trail + [Point(x, y)];
      if |trail| > TrailLimit {
        trail := trail[1..];
      }
      history := history + [Point(x, y)];
      vy := vy + Gravity;
      x := x + vx;
      y := y + vy;
      exploded := vy >= 0.0 || y <= targetY;
    }
  }

  // ----------------------------------------------------------------- particles

  /** One particle's draws: its velocity (already resolved) and the decay, size and flicker fractions. */
  datatype SparkDraws = SparkDraws(vx: real, vy: real, decayDraw: real, sizeDraw: real, flickerDraw: real) {
    predicate WellFormed() {
      IsDraw(decayDraw) && IsDraw(sizeDraw) && IsDraw(flickerDraw)
    }
  }

  /** A burst has 50 particles on a mobile device and 150 elsewhere. */
  function BurstSize(mobile: bool): (n: nat)
    ensures n == 50 || n == 150
    ensures mobile <==> n == 50
  {
    if mobile then 50 else 150
  }

  /** The burst shape: a heart half of the time, never on a mobile device. */
  function BurstKind(mobile: bool, heartDraw: real): (k: Kind)
    ensures mobile ==> k == Circle
    ensures k == Heart <==> !mobile && heartDraw < 0.5
  {
    if !mobile && heartDraw < 0.5 then Heart else Circle
  }

  /** The alpha of a particle after `k` updates. */
  function AlphaAfter(decay: real, k: nat): real {
    if k == 0 then 1.0 else AlphaAfter(decay, k - 1) - decay
  }

  lemma {:induction false} AlphaAfterIsLinear(decay: real, k: nat)
    ensures AlphaAfter(decay, k) == 1.0 - k as real * decay
  {
    if k > 0 {
      AlphaAfterIsLinear(decay, k - 1);
      assert k as real * decay == (k - 1) as real * decay + decay;
    }
  }

  /**
   * With a decay in [0.008, 0.018), a particle is still visible after 55
   * updates and has faded out after 125: every particle is removed between
   * its 56th and its 125th frame. The bound at 125 is met with equality for
   * a decay of exactly 0.008 (125 * 0.008 = 1); that holds over the reals
   * this model uses, not necessarily in double-precision arithmetic.
   */
  lemma ParticleLifetime(decay: real)
    requires 0.008 <= decay < 0.018
    ensures AlphaAfter(decay, 55) > 0.0
    ensures AlphaAfter(decay, 125) <= 0.0
  {
    AlphaAfterIsLinear(decay, 55);
    AlphaAfterIsLinear(decay, 125);
  }

  class Particle {
    var x: real
    var y: real
    var vx: real
    var vy: real
    var alpha: real
    const color: string
    const kind: Kind
    const decay: real
    const size: real
    const flicker: bool

    /** Only constant fields: the bounds the constructor's draws give. */
    ghost predicate Valid() {
      0.008 <= decay < 0.018 && 1.0 <= size < 4.0
    }

    /** A particle at the burst point, opaque, with its decay, size and flicker drawn; a heart particle starts at rest. */
    constructor (x: real, y: real, color: string, kind: Kind, d: SparkDraws)
      requires d.WellFormed()
      ensures Valid()
      ensures this.x == x && this.y == y && this.color == color && this.kind == kind && alpha == 1.0
      ensures kind == Heart ==> vx == 0.0 && vy == 0.0
      ensures kind == Circle ==> vx == d.vx && vy == d.vy
      ensures flicker <==> d.flickerDraw < 0.5
    {
      this.x := x;
      this.y := y;
      this.color := color;
      this.kind := kind;
      if kind == Heart {
        vx, vy := 0.0, 0.0;
      } else {
        vx, vy := d.vx, d.vy;
      }
      alpha := 1.0;
      decay := 0.008 + d.decayDraw * 0.01;
      size := d.sizeDraw * 3.0 + 1.0;
      flicker := d.flickerDraw < 0.5;
    }

    /** `update`: friction, gravity, a step, and a fade by `decay`, so alpha strictly decreases. */
    method Update()
      requires Valid()
      modifies this
      ensures alpha == old(alpha) - decay && alpha < old(alpha)
      ensures vx == old(vx) * Friction && vy == old(vy) * Friction + Gravity
      ensures x == old(x) + vx && y == old(y) + vy
    {
      vx := vx * Friction;
      vy := vy * Friction;
      vy := vy + Gravity;
      x := x + vx;
      y := y + vy;
      alpha := alpha - decay;
    }
  }
}

=== FILE: fireworks_show.dfy ===
/**
 * The fireworks show of js/animations.js: the module state (`fireworksActive`,
 * `animationFrameId`), `startCelebration`, `launchFireworks`, its frame loop
 * `animate`, and `stopFireworks`.
 *
 * Each call of `launchFireworks` makes a FrameLoop holding its own firework
 * and particle lists; `animate` runs once at launch and then once per frame it
 * requests. Frame requests are modelled as handles: `requestAnimationFrame`
 * hands out a new handle and records it as pending, `cancelAnimationFrame`
 * drops it, and the browser runs a pending frame by calling RunFrame on the
 * loop that requested it.
 *
 * The two backward loops of `animate` splice entries out of a list while
 * walking it. Their result is described with Keep: the entries whose flag is
 * set, in their original order.
 */
module FireworksShow {
  import opened Wrappers
  import opened FireworkEntities

  ghost predicate Distinct<T>(s: seq<T>) {
    forall i, j :: 0 <= i < j < |s| ==> s[i] != s[j]
  }

  // ------------------------------------------------------------ list filtering

  /** The entries of `s` whose flag is set, in order. */
  function Keep<T>(s: seq<T>, flags: seq<bool>): seq<T>
    requires |flags| == |s|
  {
    if s == [] then [] else (if flags[0] then [s[0]] else []) + Keep(s[1..], flags[1..])
  }

  /** The entries of `s` whose flag is clear, in the order a backward walk meets them (last first). */
  function Dropped<T>(s: seq<T>, flags: seq<bool>): seq<T>
    requires |flags| == |s|
  {
    if s == [] then [] else Dropped(s[1..], flags[1..]) + (if flags[0] then [] else [s[0]])
  }

  /** Every entry is either kept or dropped. */
  lemma {:induction false} KeepDroppedSizes<T>(s: seq<T>, flags: seq<bool>)
    requires |flags| == |s|
    ensures |Keep(s, flags)| + |Dropped(s, flags)| == |s|
  {
    if s != [] {
      KeepDroppedSizes(s[1..], flags[1..]);
    }
  }

  /** Every kept entry is a flagged one: whatever holds of the flagged entries holds of the kept ones. */
  lemma {:induction false} KeepWithin<T>(s: seq<T>, flags: seq<bool>, good: set<T>)
    requires |flags| == |s|
    requires forall k :: 0 <= k < |s| && flags[k] ==> s[k] in good
    ensures forall j :: 0 <= j < |Keep(s, flags)| ==> Keep(s, flags)[j] in good
  {
    if s != [] {
      KeepWithin(s[1..], flags[1..], good);
    }
  }

  /** Every flagged entry is kept. */
  lemma {:induction false} KeepComplete<T>(s: seq<T>, flags: seq<bool>)
    requires |flags| == |s|
    ensures forall k :: 0 <= k < |s| && flags[k] ==> s[k] in Keep(s, flags)
  {
    if s != [] {
      KeepComplete(s[1..], flags[1..]);
      forall k | 0 < k < |s| && flags[k]
        ensures s[k] in Keep(s, flags)
      {
        assert s[1..][k - 1] == s[k];
      }
    }
  }

  /** Every dropped entry is an unflagged one. */
  lemma {:induction false} DroppedWithin<T>(s: seq<T>, flags: seq<bool>, bad: set<T>)
    requires |flags| == |s|
    requires forall k :: 0 <= k < |s| && !flags[k] ==> s[k] in bad
    ensures forall j :: 0 <= j < |Dropped(s, flags)| ==> Dropped(s, flags)[j] in bad
  {
    if s != [] {
      DroppedWithin(s[1..], flags[1..], bad);
    }
  }

  /** Every unflagged entry is dropped. */
  lemma {:induction false} DroppedComplete<T>(s: seq<T>, flags: seq<bool>)
    requires |flags| == |s|
    ensures forall k :: 0 <= k < |s| && !flags[k] ==> s[k] in Dropped(s, flags)
  {
    if s != [] {
      DroppedComplete(s[1..], flags[1..]);
      forall k | 0 < k < |s| && !flags[k]
        ensures s[k] in Dropped(s, flags)
      {
        assert s[1..][k - 1] == s[k];
      }
    }
  }

  /** Filtering never lengthens a list and adds nothing to it. */
  lemma KeepShrinks<T>(s: seq<T>, flags: seq<bool>)
    requires |flags| == |s|
    ensures |Keep(s, flags)| <= |s|
    ensures forall j :: 0 <= j < |Keep(s, flags)| ==> Keep(s, flags)[j] in s
  {
    KeepDroppedSizes(s, flags);
    KeepWithin(s, flags, set k | 0 <= k < |s| :: s[k]);
  }

  /** Filtering keeps a list free of repeats. */
  lemma {:induction false} KeepDistinct<T>(s: seq<T>, flags: seq<bool>)
    requires |flags| == |s| && Distinct(s)
    ensures Distinct(Keep(s, flags))
  {
    if s != [] {
      KeepDistinct(s[1..], flags[1..]);
      var rest := set k | 0 <= k < |s[1..]| :: s[1..][k];
      KeepWithin(s[1..], flags[1..], rest);
      assert s[0] !in rest;
    }
  }

  /**
   * One step of a backward walk that splices out, at index `i`, an entry
   * whose flag is clear: before it the list is `s` up to `i` followed by what
   * the walk has kept of the rest.
   */
  lemma SpliceStep<T>(s: seq<T>, cur: seq<T>, flags: seq<bool>, i: nat)
    requires i < |s| && |flags| == |s|
    requires cur == s[..i + 1] + Keep(s[i + 1..], flags[i + 1..])
    ensures i < |cur| && cur[i] == s[i]
    ensures (if flags[i] then cur else cur[..i] + cur[i + 1..]) == s[..i] + Keep(s[i..], flags[i..])
    ensures Dropped(s[i..], flags[i..]) == Dropped(s[i + 1..], flags[i + 1..]) + (if flags[i] then [] else [s[i]])
  {
    assert s[i..][1..] == s[i + 1..];
    assert flags[i..][1..] == flags[i + 1..];
    assert s[..i + 1] == s[..i] + [s[i]];
  }

  // ------------------------------------------------------------------ flags

  /** Which particles are still visible. */
  ghost function AliveFlags(ps: seq<Particle>): (r: seq<bool>)
    reads ps
    ensures |r| == |ps| && forall k :: 0 <= k < |ps| ==> (r[k] <==> ps[k].alpha > 0.0)
  {
    seq(|ps|, k requires 0 <= k < |ps| reads ps => ps[k].alpha > 0.0)
  }

  /** Which fireworks are still climbing. */
  ghost function ClimbFlags(fs: seq<Firework>): (r: seq<bool>)
    reads fs
    ensures |r| == |fs| && forall k :: 0 <= k < |fs| ==> (r[k] <==> !fs[k].Exploded())
  {
    seq(|fs|, k requires 0 <= k < |fs| reads fs => !fs[k].Exploded())
  }

  // ------------------------------------------------------------ the two loops

  /** What one frame draws: whether a firework is launched and with what, the device type, and each burst's draws. */
  datatype FrameDraws = FrameDraws(spawnDraw: real, launch: LaunchDraws, mobile: bool,
                                   heartDraws: nat -> real, sparks: nat -> nat -> SparkDraws) {
    ghost predicate WellFormed() {
      launch.WellFormed() && forall b, n :: sparks(b)(n).WellFormed()
    }
  }

  /** `Math.random() < 0.05`: a new firework is launched on about one frame in twenty. */
  const SpawnChance: real := 0.05

  /**
   * `createParticles`: a burst of 50 particles on a mobile device, 150
   * elsewhere, pushed onto the list, all at the burst point in its colour,
   * heart-shaped half of the time on other devices. A heart particle gets its
   * velocity after it is made.
   */
  method CreateParticles(ps: seq<Particle>, x: real, y: real, color: string, mobile: bool, heartDraw: real, sparks: nat -> SparkDraws)
    returns (particles: seq<Particle>)
    requires Distinct(ps) && forall n :: sparks(n).WellFormed()
    ensures Distinct(particles)
    ensures |particles| == |ps| + BurstSize(mobile) && particles[..|ps|] == ps
    ensures forall j :: |ps| <= j < |particles| ==>
              fresh(particles[j]) && particles[j].Valid() && particles[j].alpha == 1.0 && particles[j].x == x && particles[j].y == y
              && particles[j].color == color && particles[j].kind == BurstKind(mobile, heartDraw)
  {
    particles := ps;
    var particleCount := BurstSize(mobile);
    var kind := BurstKind(mobile, heartDraw);
    for i := 0 to particleCount
      invariant Distinct(particles)
      invariant |particles| == |ps| + i && particles[..|ps|] == ps
      invariant forall j :: |ps| <= j < |particles| ==>
                  fresh(particles[j]) && particles[j].Valid() && particles[j].alpha == 1.0 && particles[j].x == x && particles[j].y == y
                  && particles[j].color == color && particles[j].kind == kind
    {
      var p := new Particle(x, y, color, kind, sparks(i));
      if kind == Heart {
        p.vx := sparks(i).vx;
        p.vy := sparks(i).vy;
      }
      particles := particles + [p];
    }
  }

  /** `new Firework()`, seen from the list: a fresh firework whose trail is empty and valid. */
  method Launch(d: LaunchDraws, width: real, height: real) returns (f: Firework)
    requires d.WellFormed() && 0.0 <= width && 0.0 <= height
    ensures fresh(f) && f.Valid() && f.trail == []
  {
    f := new Firework(d, width, height);
  }

  /** `fireworks.push(new Firework())`: a new firework, fresh and with an empty trail, joins the end of the list. */
  method AddFirework(fs: seq<Firework>, d: LaunchDraws, width: real, height: real) returns (fireworks: seq<Firework>)
    requires Distinct(fs) && forall j :: 0 <= j < |fs| ==> fs[j].Valid()
    requires d.WellFormed() && 0.0 <= width && 0.0 <= height
    ensures Distinct(fireworks) && forall j :: 0 <= j < |fireworks| ==> fireworks[j].Valid()
    ensures |fireworks| == |fs| + 1 && fireworks[..|fs|] == fs && fresh(fireworks[|fs|])
    ensures forall j :: 0 <= j < |fireworks| ==> fireworks[j] in fs || fresh(fireworks[j])
  {
    var f := Launch(d, width, height);
    fireworks := fs + [f];
    assert fireworks[..|fs|] == fs;
    forall j | 0 <= j < |fireworks|
      ensures fireworks[j].Valid() && (j < |fs| ==> fireworks[j] == fs[j] && fireworks[j] != f && fireworks[j] in fs)
    {
      if j < |fs| {
        assert fireworks[j] == fs[j];
      }
    }
  }

  /** The moving parts of every firework in the list, as they are now. */
  ghost function Snapshots(fs: seq<Firework>): (r: seq<Flight>)
    reads fs
    ensures |r| == |fs| && forall k :: 0 <= k < |fs| ==> r[k] == fs[k].Snapshot()
  {
    seq(|fs|, k requires 0 <= k < |fs| reads fs => fs[k].Snapshot())
  }

  /** Which fireworks will still be climbing after one update from the snapshots `s0`. */
  ghost function ClimbsFrom(fs: seq<Firework>, s0: seq<Flight>): (r: seq<bool>)
    requires |s0| == |fs|
    ensures |r| == |fs| && forall k :: 0 <= k < |fs| ==> (r[k] <==> !(Advance(s0[k]).vy >= 0.0 || Advance(s0[k]).y <= fs[k].targetY))
  {
    seq(|fs|, k requires 0 <= k < |fs| => !(Advance(s0[k]).vy >= 0.0 || Advance(s0[k]).y <= fs[k].targetY))
  }

  /**
   * One turn of the firework loop of `animate`, at index `i`: the firework
   * there is updated and, when the update reports the burst, spliced out of
   * the list and added to the burst ones. `climb` tells, from the snapshots
   * `s0` taken before the walk, which fireworks keep climbing.
   */
  method WalkStep(fs: seq<Firework>, ghost s0: seq<Flight>, ghost climb: seq<bool>, cur: seq<Firework>, dropped: seq<Firework>, i: nat)
    returns (fireworks: seq<Firework>, burst: seq<Firework>)
    requires Distinct(fs) && i < |fs| && |s0| == |fs| && |climb| == |fs|
    requires forall k :: 0 <= k < |fs| ==> (climb[k] <==> !(Advance(s0[k]).vy >= 0.0 || Advance(s0[k]).y <= fs[k].targetY))
    requires cur == fs[..i + 1] + Keep(fs[i + 1..], climb[i + 1..])
    requires dropped == Dropped(fs[i + 1..], climb[i + 1..])
    requires forall j :: 0 <= j < |fs| ==> fs[j].Snapshot() == if j <= i then s0[j] else Advance(s0[j])
    modifies fs[i]
    ensures fireworks == fs[..i] + Keep(fs[i..], climb[i..])
    ensures burst == Dropped(fs[i..], climb[i..])
    ensures forall j :: 0 <= j < |fs| ==> fs[j].Snapshot() == if j < i then s0[j] else Advance(s0[j])
  {
    SpliceStep(fs, cur, climb, i);
    fireworks, burst := cur, dropped;
    var f := cur[i];
    var exploded := f.Update();
    assert exploded == !climb[i];
    if exploded {
      burst := burst + [f];
      fireworks := fireworks[..i] + fireworks[i + 1..];
    }
  }

  /**
   * The firework loop of `animate`, walking the list backwards: every
   * firework is updated once, and each one whose update reports the burst is
   * spliced out. The list left holds the climbing ones in their order; the
   * burst ones are returned in the order the walk met them.
   */
  method WalkFireworks(fs: seq<Firework>) returns (fireworks: seq<Firework>, burst: seq<Firework>)
    requires Distinct(fs) && forall j :: 0 <= j < |fs| ==> fs[j].Valid()
    modifies fs
    ensures fireworks == Keep(fs, ClimbFlags(fs)) && burst == Dropped(fs, ClimbFlags(fs))
    ensures forall j :: 0 <= j < |fs| ==> fs[j].Snapshot() == Advance(old(fs[j].Snapshot())) && fs[j].Valid()
  {
    ghost var s0 := Snapshots(fs);
    ghost var climb := ClimbsFrom(fs, s0);
    fireworks := fs;
    burst := [];
    var i := |fireworks|;
    while i > 0
      invariant 0 <= i <= |fs|
      invariant fireworks == fs[..i] + Keep(fs[i..], climb[i..])
      invariant burst == Dropped(fs[i..], climb[i..])
      invariant forall j :: 0 <= j < |fs| ==> fs[j].Snapshot() == if j < i then s0[j] else Advance(s0[j])
    {
      i := i - 1;
      fireworks, burst := WalkStep(fs, s0, climb, fireworks, burst, i);
    }
    WalkDone(fs, s0, climb, fireworks, burst);
  }

  /**
   * At the end of the walk every firework has advanced once from its
   * snapshot, so the flags worked out from the snapshots are the climb flags
   * of the fireworks now, and every trail is still tracked.
   */
  lemma WalkDone(fs: seq<Firework>, s0: seq<Flight>, climb: seq<bool>, fireworks: seq<Firework>, burst: seq<Firework>)
    requires |s0| == |fs| && |climb| == |fs|
    requires forall k :: 0 <= k < |fs| ==> (climb[k] <==> !(Advance(s0[k]).vy >= 0.0 || Advance(s0[k]).y <= fs[k].targetY))
    requires forall j :: 0 <= j < |fs| ==> Tracked(s0[j]) && fs[j].Snapshot() == Advance(s0[j])
    requires fireworks == fs[..0] + Keep(fs[0..], climb[0..]) && burst == Dropped(fs[0..], climb[0..])
    ensures fireworks == Keep(fs, ClimbFlags(fs)) && burst == Dropped(fs, ClimbFlags(fs))
    ensures forall j :: 0 <= j < |fs| ==> fs[j].Valid()
  {
    assert climb == ClimbFlags(fs);
    assert fs[0..] == fs && climb[0..] == climb;
    forall j | 0 <= j < |fs|
      ensures fs[j].Valid()
    {
      AdvanceTracked(s0[j]);
    }
  }

  /** After the walk, the fireworks left are distinct, keep their trails, and none of them has burst. */
  lemma ClimbingSurvivors(fs: seq<Firework>, kept: seq<Firework>)
    requires Distinct(fs) && forall j :: 0 <= j < |fs| ==> fs[j].Valid()
    requires kept == Keep(fs, ClimbFlags(fs))
    ensures Distinct(kept)
    ensures forall j :: 0 <= j < |kept| ==> kept[j].Valid() && !kept[j].Exploded()
    ensures |kept| <= |fs| && forall j :: 0 <= j < |kept| ==> kept[j] in fs
  {
    var flags := ClimbFlags(fs);
    KeepShrinks(fs, flags);
    KeepDistinct(fs, flags);
    KeepWithin(fs, flags, set k | 0 <= k < |fs| && flags[k] :: fs[k]);
  }

  /** The fireworks a walk returns as burst are exactly the ones whose update reported the burst. */
  lemma BurstAreExploded(fs: seq<Firework>)
    ensures forall j :: 0 <= j < |Dropped(fs, ClimbFlags(fs))| ==> Dropped(fs, ClimbFlags(fs))[j].Exploded()
    ensures forall k :: 0 <= k < |fs| && fs[k].Exploded() ==> fs[k] in Dropped(fs, ClimbFlags(fs))
    ensures |Keep(fs, ClimbFlags(fs))| + |Dropped(fs, ClimbFlags(fs))| == |fs|
  {
    var flags := ClimbFlags(fs);
    DroppedWithin(fs, flags, set k | 0 <= k < |fs| && !flags[k] :: fs[k]);
    DroppedComplete(fs, flags);
    KeepDroppedSizes(fs, flags);
  }

  /**
   * The firework loop as the frame sees it: the burst ones are returned in
   * walk order, and the list left holds every other firework once, each
   * keeping its trail and none of them burst.
   */
  method FireworkLoop(fs: seq<Firework>) returns (fireworks: seq<Firework>, burst: seq<Firework>)
    requires Distinct(fs) && forall j :: 0 <= j < |fs| ==> fs[j].Valid()
    modifies fs
    ensures burst == Dropped(fs, ClimbFlags(fs))
    ensures Distinct(fireworks) && |fireworks| + |burst| == |fs|
    ensures forall j :: 0 <= j < |fireworks| ==> fireworks[j].Valid() && !fireworks[j].Exploded() && fireworks[j] in fs
  {
    fireworks, burst := WalkFireworks(fs);
    ClimbingSurvivors(fs, fireworks);
    KeepDroppedSizes(fs, ClimbFlags(fs));
  }

  /**
   * The `n` particles from `start` on form one burst of `f`: they sit at its
   * position, in its colour, in the given shape, and at full alpha.
   */
  ghost predicate BurstBlock(particles: seq<Particle>, start: nat, n: nat, f: Firework, kind: Kind)
    reads f, particles
  {
    start + n <= |particles| &&
    forall j :: start <= j < start + n ==>
      particles[j].x == f.x && particles[j].y == f.y && particles[j].color == f.color
      && particles[j].kind == kind && particles[j].alpha == 1.0
  }

  /** A burst block of a list is one of every list that extends it. */
  lemma BurstBlockPrefix(before: seq<Particle>, after: seq<Particle>, start: nat, n: nat, f: Firework, kind: Kind)
    requires BurstBlock(before, start, n, f, kind)
    requires |before| <= |after| && after[..|before|] == before
    ensures BurstBlock(after, start, n, f, kind)
  {
    forall j | start <= j < start + n
      ensures after[j] == before[j]
    {
      assert after[j] == after[..|before|][j];
    }
  }

  /** Block `k` of a list of bursts ends where block `k + 1` starts. */
  lemma BlockEnds(n: nat, k: nat, bursts: nat)
    requires k < bursts
    ensures n * k + n == n * (k + 1) <= n * bursts
  {
  }

  /**
   * One `createParticles` per burst firework, in the order given: burst `k`
   * is the `k`-th block of new particles, at that firework's position and in
   * its colour.
   */
  method CreateBursts(ps: seq<Particle>, burst: seq<Firework>, mobile: bool, heartDraws: nat -> real, sparks: nat -> nat -> SparkDraws)
    returns (particles: seq<Particle>)
    requires Distinct(ps) && (forall j :: 0 <= j < |ps| ==> ps[j].Valid()) && forall b, n :: sparks(b)(n).WellFormed()
    ensures Distinct(particles) && |particles| == |ps| + (if mobile then 50 * |burst| else 150 * |burst|) && particles[..|ps|] == ps
    ensures forall j :: |ps| <= j < |particles| ==> fresh(particles[j])
    ensures forall j :: 0 <= j < |particles| ==> particles[j].Valid()
    ensures forall k :: 0 <= k < |burst| ==>
              BurstBlock(particles, |ps| + BurstSize(mobile) * k, BurstSize(mobile), burst[k], BurstKind(mobile, heartDraws(k)))
  {
    var n := BurstSize(mobile);
    particles := ps;
    for k := 0 to |burst|
      invariant Distinct(particles) && |particles| == |ps| + n * k && particles[..|ps|] == ps
      invariant forall j :: |ps| <= j < |particles| ==> fresh(particles[j])
      invariant forall j :: 0 <= j < |particles| ==> particles[j].Valid()
      invariant forall b :: 0 <= b < k ==> BurstBlock(particles, |ps| + n * b, n, burst[b], BurstKind(mobile, heartDraws(b)))
    {
      var f := burst[k];
      var before := particles;
      particles := CreateParticles(particles, f.x, f.y, f.color, mobile, heartDraws(k), sparks(k));
      assert particles[..|ps|] == before[..|ps|];
      forall b | 0 <= b < k
        ensures BurstBlock(particles, |ps| + n * b, n, burst[b], BurstKind(mobile, heartDraws(b)))
      {
        BurstBlockPrefix(before, particles, |ps| + n * b, n, burst[b], BurstKind(mobile, heartDraws(b)));
      }
      BlockEnds(n, k, |burst|);
    }
  }

  /**
   * The particle loop of `animate`, walking the list backwards: every
   * particle is updated once, fading by its decay, and the ones that have
   * faded out are spliced out. The survivors keep their order.
   */
  method PruneParticles(ps: seq<Particle>) returns (particles: seq<Particle>)
    requires Distinct(ps) && forall j :: 0 <= j < |ps| ==> ps[j].Valid()
    modifies ps
    ensures particles == Keep(ps, AliveFlags(ps))
    ensures forall j :: 0 <= j < |ps| ==> ps[j].alpha == old(ps[j].alpha) - ps[j].decay
  {
    ghost var alive := seq(|ps|, k requires 0 <= k < |ps| reads ps => ps[k].alpha - ps[k].decay > 0.0);
    particles := ps;
    var i := |particles|;
    while i > 0
      invariant 0 <= i <= |ps|
      invariant particles == ps[..i] + Keep(ps[i..], alive[i..])
      invariant forall j :: 0 <= j < |ps| ==> ps[j].alpha == if j < i then old(ps[j].alpha) else old(ps[j].alpha) - ps[j].decay
    {
      i := i - 1;
      SpliceStep(ps, particles, alive, i);
      var p := particles[i];
      p.Update();
      if p.alpha <= 0.0 {
        particles := particles[..i] + particles[i + 1..];
      }
    }
    assert alive == AliveFlags(ps);
    assert ps[0..] == ps;
  }

  /** After the particle loop, the particles left are distinct, keep their bounds, and are all still visible. */
  lemma VisibleSurvivors(ps: seq<Particle>, kept: seq<Particle>)
    requires Distinct(ps) && forall j :: 0 <= j < |ps| ==> ps[j].Valid()
    requires kept == Keep(ps, AliveFlags(ps))
    ensures Distinct(kept)
    ensures forall j :: 0 <= j < |kept| ==> kept[j].Valid() && kept[j].alpha > 0.0
    ensures forall j :: 0 <= j < |kept| ==> kept[j] in ps
  {
    var flags := AliveFlags(ps);
    KeepShrinks(ps, flags);
    KeepDistinct(ps, flags);
    KeepWithin(ps, flags, set k | 0 <= k < |ps| && flags[k] :: ps[k]);
  }

  /**
   * The particle loop as the frame sees it: the list left is the visible
   * particles, free of repeats, all keeping their bounds and all taken from
   * the list before.
   */
  method ParticleLoop(ps: seq<Particle>) returns (particles: seq<Particle>)
    requires Distinct(ps) && forall j :: 0 <= j < |ps| ==> ps[j].Valid()
    modifies ps
    ensures particles == Keep(ps, AliveFlags(ps))
    ensures Distinct(particles)
    ensures forall j :: 0 <= j < |particles| ==> particles[j].Valid() && particles[j].alpha > 0.0 && particles[j] in ps
  {
    particles := PruneParticles(ps);
    VisibleSurvivors(ps, particles);
  }

  class Celebration {
    const hasCanvas: bool            // the `fireworks` canvas exists
    var width: nat                   // the canvas size, kept equal to the window's
    var height: nat
    var fireworksActive: bool
    var animationFrameId: Option<nat>
    var pending: set<nat>            // frames requested and neither run nor cancelled
    var lastHandle: nat              // the last handle `requestAnimationFrame` gave out
    var stopButton: Option<bool>     // None until the stop button exists; then whether it is shown
    var canvasBlank: bool            // the canvas was cleared and nothing has been drawn since

    /** Everything `stopFireworks` establishes. */
    predicate Stopped()
      reads this
    {
      !fireworksActive && animationFrameId.None? && (stopButton.Some? ==> !stopButton.value) && (hasCanvas ==> canvasBlank)
    }

    /** At most one frame is pending, and it is the one `animationFrameId` names, exactly while the show is on. */
    ghost predicate Tidy()
      reads this
    {
      && (fireworksActive <==> animationFrameId.Some?)
      && pending == (if animationFrameId.Some? then {animationFrameId.value} else {})
    }

    constructor (hasCanvas: bool, width: nat, height: nat)
      ensures Tidy() && Stopped()
      ensures this.hasCanvas == hasCanvas && this.width == width && this.height == height
      ensures pending == {} && stopButton == None
    {
      this.hasCanvas := hasCanvas;
      this.width := width;
      this.height := height;
      fireworksActive := false;
      animationFrameId := None;
      pending := {};
      lastHandle := 0;
      stopButton := None;
      canvasBlank := true;
    }

    /** The resize handler of `initFireworks`. */
    method Resize(innerWidth: nat, innerHeight: nat)
      modifies this`width, this`height
      ensures hasCanvas ==> width == innerWidth && height == innerHeight
      ensures !hasCanvas ==> width == old(width) && height == old(height)
    {
      if hasCanvas {
        width := innerWidth;
        height := innerHeight;
      }
    }

    /** `requestAnimationFrame`: a handle never given out before, now pending. */
    method RequestFrame() returns (h: nat)
      requires forall k :: k in pending ==> k <= lastHandle
      modifies this`pending, this`lastHandle
      ensures h !in old(pending) && pending == old(pending) + {h}
      ensures forall k :: k in pending ==> k <= lastHandle
    {
      lastHandle := lastHandle + 1;
      h := lastHandle;
      pending := pending + {h};
    }

    /** `stopFireworks`: the show is off, its pending frame cancelled, the button hidden and the canvas cleared. */
    method StopFireworks()
      modifies this`fireworksActive, this`animationFrameId, this`pending, this`stopButton, this`canvasBlank
      ensures Stopped()
      ensures pending == old(pending) - (if old(animationFrameId).Some? then {old(animationFrameId).value} else {})
      ensures stopButton.Some? <==> old(stopButton).Some?
      ensures old(Tidy()) ==> Tidy() && pending == {}
      ensures old(Stopped()) ==> pending == old(pending)
      ensures old(Stopped()) ==> stopButton == old(stopButton)
      ensures old(Stopped()) ==> canvasBlank == old(canvasBlank)
    {
      fireworksActive := false;
      if animationFrameId.Some? {
        pending := pending - {animationFrameId.value};
        animationFrameId := None;
      }
      if stopButton.Some? {
        stopButton := Some(false);
      }
      if hasCanvas {
        canvasBlank := true;
      }
    }

    /** `showStopButton`: the button is created if need be, and shown. */
    method ShowStopButton()
      modifies this`stopButton
      ensures stopButton == Some(true)
    {
      stopButton := Some(true);
    }

    /**
     * `launchFireworks`: without a canvas nothing happens. Otherwise the show
     * is on, a new loop starts with no fireworks and no particles, and its
     * first frame runs at once, which requests the next.
     */
    method LaunchFireworks(d: FrameDraws) returns (loop: FrameLoop?)
      requires d.WellFormed() && forall k :: k in pending ==> k <= lastHandle
      modifies this
      ensures !hasCanvas ==> loop == null && unchanged(this)
      ensures hasCanvas ==> loop != null && fresh(loop) && loop.owner == this && loop.Valid()
      ensures hasCanvas ==> fireworksActive && loop.scheduled.Some? && animationFrameId == loop.scheduled
      ensures hasCanvas ==> loop.scheduled.value !in old(pending) && pending == old(pending) + {loop.scheduled.value}
      ensures forall k :: k in pending ==> k <= lastHandle
      ensures hasCanvas ==> |loop.fireworks| <= 1
      ensures hasCanvas ==> forall j :: 0 <= j < |loop.fireworks| ==> fresh(loop.fireworks[j])
      ensures hasCanvas ==> forall j :: 0 <= j < |loop.particles| ==> fresh(loop.particles[j])
      ensures stopButton == old(stopButton) && width == old(width) && height == old(height)
    {
      if !hasCanvas {
        return null;
      }
      fireworksActive := true;
      loop := new FrameLoop(this);
      loop.Animate(d);
    }

    /** `startCelebration`: stop the show when it is on; otherwise launch it and show the stop button. */
    method StartCelebration(d: FrameDraws) returns (loop: FrameLoop?)
      requires d.WellFormed() && forall k :: k in pending ==> k <= lastHandle
      modifies this
      ensures old(fireworksActive) ==> loop == null && Stopped()
      ensures !old(fireworksActive) ==> stopButton == Some(true) && (fireworksActive <==> hasCanvas)
      ensures !old(fireworksActive) && hasCanvas ==> loop != null && fresh(loop) && loop.owner == this && loop.Valid()
      ensures !old(fireworksActive) && hasCanvas ==> loop.scheduled.Some? && animationFrameId == loop.scheduled
      ensures old(Tidy()) ==> Tidy()
      ensures forall k :: k in pending ==> k <= lastHandle
    {
      if fireworksActive {
        StopFireworks();
        loop := null;
      } else {
        loop := LaunchFireworks(d);
        ShowStopButton();
      }
    }

    /**
     * `launchAutoFireworks`, without its 30-second timer: a launch that does
     * not look at `fireworksActive`, so a second loop can start beside a
     * running one and two frames are then pending.
     */
    method LaunchAutoFireworks(d: FrameDraws) returns (loop: FrameLoop?)
      requires d.WellFormed() && forall k :: k in pending ==> k <= lastHandle
      modifies this
      ensures hasCanvas ==> loop != null && loop.scheduled.Some? && pending == old(pending) + {loop.scheduled.value}
      ensures hasCanvas ==> |pending| == |old(pending)| + 1
      ensures !hasCanvas ==> unchanged(this)
    {
      loop := LaunchFireworks(d);
    }
  }


  class FrameLoop {
    const owner: Celebration
    var fireworks: seq<Firework>
    var particles: seq<Particle>
    var scheduled: Option<nat>       // the handle of this loop's pending frame, if any

    /** No firework or particle is listed twice, every trail holds its last five positions, every particle has its drawn bounds. */
    ghost predicate Valid()
      reads this, fireworks
    {
      && Distinct(fireworks) && Distinct(particles)
      && (forall j :: 0 <= j < |fireworks| ==> fireworks[j].Valid())
      && (forall j :: 0 <= j < |particles| ==> particles[j].Valid())
    }

    /** The lists `launchFireworks` starts with. */
    constructor (owner: Celebration)
      ensures Valid() && this.owner == owner && fireworks == [] && particles == [] && scheduled == None
    {
      this.owner := owner;
      fireworks := [];
      particles := [];
      scheduled := None;
    }

    /** `animate`'s launch: on about one frame in twenty a new firework joins the list. */
    method Spawn(d: FrameDraws)
      requires Valid() && d.WellFormed()
      modifies this`fireworks
      ensures Valid() && particles == old(particles)
      ensures d.spawnDraw < SpawnChance ==> |fireworks| == |old(fireworks)| + 1 && fireworks[..|old(fireworks)|] == old(fireworks) && fresh(fireworks[|old(fireworks)|])
      ensures d.spawnDraw >= SpawnChance ==> fireworks == old(fireworks)
      ensures |fireworks| <= |old(fireworks)| + 1
      ensures forall j :: 0 <= j < |fireworks| ==> fireworks[j] in old(fireworks) || fresh(fireworks[j])
    {
      if d.spawnDraw < SpawnChance {
        fireworks := AddFirework(fireworks, d.launch, owner.width as real, owner.height as real);
      }
    }

    /**
     * The firework loop of `animate`: the fireworks left have not burst; the
     * burst ones are returned.
     */
    method FireworkPass() returns (burst: seq<Firework>)
      requires Valid()
      modifies this`fireworks, fireworks
      ensures Valid() && particles == old(particles)
      ensures forall j :: 0 <= j < |fireworks| ==> !fireworks[j].Exploded()
      ensures |fireworks| <= |old(fireworks)| && forall j :: 0 <= j < |fireworks| ==> fireworks[j] in old(fireworks)
    {
      var fs;
      fs, burst := FireworkLoop(fireworks);
      fireworks := fs;
    }

    /** The bursts `createParticles` appends to the particles, one per burst firework. */
    method BurstPass(burst: seq<Firework>, d: FrameDraws)
      requires Valid() && d.WellFormed()
      modifies this`particles
      ensures Valid() && fireworks == old(fireworks)
      ensures |particles| == |old(particles)| + (if d.mobile then 50 * |burst| else 150 * |burst|)
      ensures particles[..|old(particles)|] == old(particles)
      ensures forall j :: |old(particles)| <= j < |particles| ==> fresh(particles[j])
      ensures forall k :: 0 <= k < |burst| ==>
                BurstBlock(particles, |old(particles)| + BurstSize(d.mobile) * k, BurstSize(d.mobile), burst[k], BurstKind(d.mobile, d.heartDraws(k)))
    {
      particles := CreateBursts(particles, burst, d.mobile, d.heartDraws, d.sparks);
    }

    /** The particle loop. The particles left are all still visible. */
    method ParticlePass()
      requires Valid()
      modifies this`particles, particles
      ensures Valid() && fireworks == old(fireworks)
      ensures forall j :: 0 <= j < |particles| ==> particles[j].alpha > 0.0
      ensures forall j :: 0 <= j < |particles| ==> particles[j] in old(particles)
    {
      particles := ParticleLoop(particles);
    }

    /**
     * The launch and the firework loop of `animate`, with the bursts they
     * produce: no firework left has burst, and every particle is an old one
     * or a new one.
     */
    method FireworkPhase(d: FrameDraws)
      requires Valid() && d.WellFormed()
      modifies this`fireworks, this`particles, fireworks
      ensures Valid()
      ensures forall j :: 0 <= j < |fireworks| ==> !fireworks[j].Exploded()
      ensures forall j :: 0 <= j < |particles| ==> particles[j] in old(particles) || fresh(particles[j])
      ensures |fireworks| <= |old(fireworks)| + 1
      ensures forall j :: 0 <= j < |fireworks| ==> fireworks[j] in old(fireworks) || fresh(fireworks[j])
    {
      Spawn(d);
      var burst := FireworkPass();
      BurstPass(burst, d);
      assert forall j :: 0 <= j < |old(particles)| ==> particles[j] == particles[..|old(particles)|][j];
    }

    /**
     * The drawing part of `animate`: maybe launch a firework, then the
     * firework loop and the particle loop. What is left is no firework that
     * has burst and no particle that has faded out.
     */
    method DrawFrame(d: FrameDraws)
      requires Valid() && d.WellFormed()
      modifies this`fireworks, this`particles, fireworks, particles
      ensures Valid()
      ensures forall j :: 0 <= j < |fireworks| ==> !fireworks[j].Exploded()
      ensures forall j :: 0 <= j < |particles| ==> particles[j].alpha > 0.0
      ensures |fireworks| <= |old(fireworks)| + 1
      ensures forall j :: 0 <= j < |fireworks| ==> fireworks[j] in old(fireworks) || fresh(fireworks[j])
      ensures forall j :: 0 <= j < |particles| ==> particles[j] in old(particles) || fresh(particles[j])
    {
      FireworkPhase(d);
      ParticlePass();
    }

    /**
     * `animate`: once the show is off, clear the canvas and stop, requesting
     * nothing. Otherwise fade the canvas, maybe launch a firework, run the two
     * loops, and request exactly one next frame.
     */
    method Animate(d: FrameDraws)
      requires Valid() && d.WellFormed() && forall k :: k in owner.pending ==> k <= owner.lastHandle
      modifies this, owner`canvasBlank, owner`animationFrameId, owner`pending, owner`lastHandle, fireworks, particles
      ensures Valid()
      ensures forall k :: k in owner.pending ==> k <= owner.lastHandle
      ensures !old(owner.fireworksActive) ==>
                && owner.pending == old(owner.pending) && owner.animationFrameId == old(owner.animationFrameId)
                && scheduled == old(scheduled) && owner.canvasBlank
                && fireworks == old(fireworks) && particles == old(particles)
      ensures old(owner.fireworksActive) ==>
                && scheduled.Some? && owner.animationFrameId == scheduled && !owner.canvasBlank
                && scheduled.value !in old(owner.pending) && owner.pending == old(owner.pending) + {scheduled.value}
                && (forall j :: 0 <= j < |fireworks| ==> !fireworks[j].Exploded())
                && (forall j :: 0 <= j < |particles| ==> particles[j].alpha > 0.0)
                && |fireworks| <= |old(fireworks)| + 1
                && (forall j :: 0 <= j < |fireworks| ==> fireworks[j] in old(fireworks) || fresh(fireworks[j]))
                && (forall j :: 0 <= j < |particles| ==> particles[j] in old(particles) || fresh(particles[j]))
    {
      if !owner.fireworksActive {
        owner.canvasBlank := true;
        return;
      }
      owner.canvasBlank := false;
      DrawFrame(d);
      var h := owner.RequestFrame();
      owner.animationFrameId := Some(h);
      scheduled := Some(h);
    }

    /** The browser runs this loop's pending frame: the handle is used up and `animate` runs. */
    method RunFrame(d: FrameDraws)
      requires Valid() && d.WellFormed() && forall k :: k in owner.pending ==> k <= owner.lastHandle
      requires scheduled.Some? && scheduled.value in owner.pending
      modifies this, owner`canvasBlank, owner`animationFrameId, owner`pending, owner`lastHandle, fireworks, particles
      ensures Valid()
      ensures forall k :: k in owner.pending ==> k <= owner.lastHandle
      ensures old(owner.Tidy()) ==> owner.Tidy()
      ensures owner.fireworksActive ==> scheduled.Some? && owner.pending == old(owner.pending) - {old(scheduled.value)} + {scheduled.value}
      ensures !owner.fireworksActive ==> scheduled.None? && owner.pending == old(owner.pending) - {old(scheduled.value)}
    {
      owner.pending := owner.pending - {scheduled.value};
      scheduled := None;
      Animate(d);
    }
  }
}

=== FILE: menu.dfy ===
/**
 * The mobile menu of js/enhanced-features.js (`initMobileMenu`). Three class
 * flags move together: `active` on the toggle button, `active` on the link
 * list and `menu-open` on the body. The toggle flips them; a click on a
 * navigation link, or anywhere outside the toggle and the link list, clears
 * them.
 *
 * A click reaches the handler of the element clicked first and then the
 * document's handler; Click runs both in that order.
 */
module Menu {

  /** Where a click lands. */
  datatype Target =
    | MenuToggle     // on (or inside) the toggle button
    | NavLink        // on a `.nav-link`, which sits inside the link list
    | InsideNav      // elsewhere inside the link list
    | Outside        // anywhere else on the page

  class MobileMenu {
    const wired: bool           // both `mobileMenuToggle` and `navLinks` exist, so the handlers are installed
    var toggleActive: bool
    var navActive: bool
    var menuOpen: bool          // `menu-open` on the body

    /** The three flags agree. */
    ghost predicate Valid()
      reads this
    {
      toggleActive == navActive == menuOpen
    }

    constructor (wired: bool)
      ensures Valid() && this.wired == wired && !toggleActive
    {
      this.wired := wired;
      toggleActive, navActive, menuOpen := false, false, false;
    }

    /** The toggle's handler: `classList.toggle` on all three. */
    method ToggleClick()
      modifies this
      ensures toggleActive == !old(toggleActive) && navActive == !old(navActive) && menuOpen == !old(menuOpen)
    {
      toggleActive := !toggleActive;
      navActive := !navActive;
      menuOpen := !menuOpen;
    }

    /** The handler shared by a navigation link and an outside click: `classList.remove` on all three. */
    method Close()
      modifies this
      ensures !toggleActive && !navActive && !menuOpen
    {
      toggleActive := false;
      navActive := false;
      menuOpen := false;
    }

    /**
     * One click: the clicked element's handler, then the document's, which
     * closes the menu only when the target is outside both the toggle and the
     * link list. Without the two elements no handler is installed.
     */
    method Click(target: Target)
      requires Valid()
      modifies this
      ensures Valid()
      ensures !wired ==> toggleActive == old(toggleActive)
      ensures wired ==> toggleActive == match target
                                          case MenuToggle => !old(toggleActive)
                                          case InsideNav => old(toggleActive)
                                          case _ => false
    {
      if !wired {
        return;
      }
      if target == MenuToggle {
        ToggleClick();
      } else if target == NavLink {
        Close();
      }
      if target == Outside {
        Close();
      }
    }
  }
}

=== FILE: music.dfy ===
/**
 * The background-music switch of js/enhanced-features.js (`initMusicToggle`).
 * `isPlaying` becomes true only once the audio element has actually started,
 * and the choice is saved as `musicEnabled`. Whether the browser lets the
 * audio start (autoplay policy) is a parameter, and the promise is taken to
 * settle before the next click.
 */
module Music {
  import opened Wrappers

  /** What the button shows: its markup before any change, then one of the two icons. */
  datatype Icon = Initial | SoundOn | SoundOff

  class MusicToggle {
    const hasButton: bool          // `musicToggle` exists (and so the click handler is installed)
    const hasAudio: bool           // `bgMusic` exists
    var isPlaying: bool
    var icon: Icon
    var saved: Option<string>      // the saved value `musicEnabled`

    /** Playing implies the choice is saved and the button shows the sound-on icon; the sound-off icon implies silence. */
    ghost predicate Valid()
      reads this
    {
      && (isPlaying ==> saved == Some("true") && (hasButton ==> icon == SoundOn))
      && (icon == SoundOff ==> !isPlaying)
      && (!hasButton ==> icon == Initial)
    }

    /** `initMusicToggle`: a saved "true" tries to start the music at once. */
    constructor (hasButton: bool, hasAudio: bool, saved: Option<string>, allowed: bool)
      ensures Valid() && this.hasButton == hasButton && this.hasAudio == hasAudio
      ensures isPlaying <==> saved == Some("true") && hasAudio && allowed
      ensures this.saved == saved
    {
      this.hasButton := hasButton;
      this.hasAudio := hasAudio;
      this.saved := saved;
      isPlaying := false;
      icon := Initial;
      new;
      if saved == Some("true") {
        PlayMusic(allowed);
      }
    }

    /** `playMusic`: when the audio starts, playing, sound-on icon, saved "true"; otherwise nothing changes. */
    method PlayMusic(allowed: bool)
      requires Valid()
      modifies this`isPlaying, this`icon, this`saved
      ensures Valid()
      ensures hasAudio && allowed ==> isPlaying && saved == Some("true") && (hasButton ==> icon == SoundOn)
      ensures !(hasAudio && allowed) ==> isPlaying == old(isPlaying) && icon == old(icon) && saved == old(saved)
      ensures !hasButton ==> icon == old(icon)
    {
      if hasAudio && allowed {
        isPlaying := true;
        if hasButton {
          icon := SoundOn;
        }
        saved := Some("true");
      }
    }

    /** `pauseMusic`: silent, sound-off icon, saved "false", whether or not there is audio. */
    method PauseMusic()
      requires Valid()
      modifies this`isPlaying, this`icon, this`saved
      ensures Valid()
      ensures !isPlaying && saved == Some("false")
      ensures hasButton ==> icon == SoundOff
      ensures !hasButton ==> icon == old(icon)
    {
      isPlaying := false;
      if hasButton {
        icon := SoundOff;
      }
      saved := Some("false");
    }

    /** The click handler: pause when playing, otherwise try to play. */
    method Click(allowed: bool)
      requires Valid() && hasButton
      modifies this`isPlaying, this`icon, this`saved
      ensures Valid()
      ensures old(isPlaying) ==> !isPlaying && icon == SoundOff && saved == Some("false")
      ensures !old(isPlaying) && hasAudio && allowed ==> isPlaying && icon == SoundOn && saved == Some("true")
      ensures !old(isPlaying) && !(hasAudio && allowed) ==> !isPlaying && icon == old(icon) && saved == old(saved)
    {
      if isPlaying {
        PauseMusic();
      } else {
        PlayMusic(allowed);
      }
    }
  }
}

=== FILE: progress.dfy ===
/**
 * The resolution progress step shared by js/interactions.js (the click handler
 * of `initResolutionTrackers`) and js/enhanced-features.js (`incrementProgress`):
 * add 10, and start again from 0 once the sum passes 100. From 0 the values run
 * 0, 10, ..., 100, 0, ...
 *
 * The interactions.js handler keeps the value only in the progress bar's CSS
 * width, read back with `parseInt(width) || 0`; it is modelled by the class
 * ResolutionCard.
 */
module Progress {
  import opened Wrappers

  /** One click: old + 10, or 0 when that exceeds 100. */
  function NextProgress(current: int): (r: int)
    ensures r <= 100
    ensures current + 10 > 100 ==> r == 0
    ensures current + 10 <= 100 ==> r == current + 10
  {
    var next := current + 10;
    if next > 100 then 0 else next
  }

  /** The values a card can show: multiples of ten from 0 to 100. */
  predicate OnGrid(p: int) {
    0 <= p <= 100 && p % 10 == 0
  }

  /** The value after `k` clicks from `start`. */
  function Clicks(start: int, k: nat): int {
    if k == 0 then start else NextProgress(Clicks(start, k - 1))
  }

  /** A click keeps a value on the grid, and reaches 100 exactly from 90. */
  lemma StepOnGrid(p: int)
    requires OnGrid(p)
    ensures OnGrid(NextProgress(p))
    ensures NextProgress(p) == 100 <==> p == 90
    ensures NextProgress(p) == 0 <==> p == 100
  {
  }

  /** From 0 the value after `k` clicks is 10 * (k mod 11): 0, 10, ..., 100, then 0 again. */
  lemma {:induction false} ClicksFromZero(k: nat)
    ensures Clicks(0, k) == 10 * (k % 11)
  {
    if k > 0 {
      ClicksFromZero(k - 1);
      var j := (k - 1) % 11;
      assert k % 11 == if j == 10 then 0 else j + 1;
    }
  }

  /** Eleven clicks bring any grid value back to itself. */
  lemma {:induction false} ElevenClicksCycle(p: int)
    requires OnGrid(p)
    ensures Clicks(p, 11) == p
  {
    var q := p / 10;
    ClicksShift(p, 10 - q);
    assert Clicks(p, 10 - q) == 100;
    assert Clicks(p, 11 - q) == 0;
    ClicksCompose(p, 11 - q, q);
    ClicksFromZero(q);
  }

  /** Below 100 on the grid, each click adds exactly 10. */
  lemma {:induction false} ClicksShift(p: int, k: nat)
    requires OnGrid(p) && p + 10 * k <= 100
    ensures Clicks(p, k) == p + 10 * k
  {
    if k > 0 {
      ClicksShift(p, k - 1);
    }
  }

  lemma {:induction false} ClicksCompose(p: int, a: nat, b: nat)
    ensures Clicks(p, a + b) == Clicks(Clicks(p, a), b)
  {
    if b > 0 {
      ClicksCompose(p, a, b - 1);
    }
  }

  /** A resolution card of js/interactions.js, whose progress lives in its bar's width. */
  class ResolutionCard {
    const hasBar: bool       // the card has both `.progress-bar-fill` and `.progress-text`
    var width: Option<int>   // `parseInt(progressBar.style.width)`; None when it is NaN

    constructor (hasBar: bool, width: Option<int>)
      ensures this.hasBar == hasBar && this.width == width
    {
      this.hasBar := hasBar;
      this.width := width;
    }

    /**
     * The click handler: an unreadable width counts as 0; the new value is
     * written back, and the completion celebration fires exactly when it is 100.
     */
    method Click() returns (celebrate: bool)
      modifies this`width
      ensures !hasBar ==> width == old(width) && !celebrate
      ensures hasBar ==> width == Some(NextProgress(old(width).GetOr(0)))
      ensures celebrate <==> hasBar && width == Some(100)
    {
      celebrate := false;
      if !hasBar {
        return;
      }
      var currentProgress := width.GetOr(0);
      currentProgress := currentProgress + 10;
      if currentProgress > 100 {
        currentProgress := 0;
      }
      width := Some(currentProgress);
      celebrate := currentProgress == 100;
    }
  }
}

=== FILE: quote_carousel.dfy ===
/**
 * The quotes carousel of js/interactions.js: `showQuote`, `changeQuote`, the
 * dots made by `initQuotesCarousel` and the swipe handlers of `addSwipeSupport`.
 *
 * Each quote card and each dot is reduced to whether it carries the `active`
 * class; the two lists are arrays the operations toggle in place. The
 * auto-play interval and the hover pause are timers and are not modelled; a
 * tick of the interval does what ChangeQuote(1) does.
 */
module QuoteCarousel {
  import opened Wrappers

  /** The index `showQuote` settles on: past the end goes to 0, before the start to the last quote. */
  function WrapIndex(index: int, n: nat): (r: nat)
    requires n > 0
    ensures r < n
    ensures 0 <= index < n ==> r == index
  {
    if index >= n then 0
    else if index < 0 then n - 1
    else index
  }

  /** One step forward or back from a shown quote is arithmetic modulo the number of quotes. */
  lemma WrapStep(i: int, n: nat, d: int)
    requires 0 <= i < n && (d == 1 || d == -1)
    ensures WrapIndex(i + d, n) == (i + d) % n
  {
  }

  /** The quote shown after `k` forward steps (swipes left or auto-play ticks) from quote `i`. */
  function Forward(i: nat, n: nat, k: nat): nat
    requires i < n
  {
    if k == 0 then i else WrapIndex(Forward(i, n, k - 1) + 1, n)
  }

  /** Forward steps that stay before the end simply count up. */
  lemma {:induction false} ForwardCountsUp(i: nat, n: nat, k: nat)
    requires i + k < n
    ensures Forward(i, n, k) == i + k
  {
    if k > 0 {
      ForwardCountsUp(i, n, k - 1);
    }
  }

  lemma {:induction false} ForwardCompose(i: nat, n: nat, a: nat, b: nat)
    requires i < n
    ensures Forward(i, n, a + b) == Forward(Forward(i, n, a), n, b)
  {
    if b > 0 {
      ForwardCompose(i, n, a, b - 1);
    }
  }

  /** `n` forward steps from any quote come back to it: the carousel cycles through every quote. */
  lemma ForwardCycles(i: nat, n: nat)
    requires i < n
    ensures Forward(i, n, n) == i
  {
    ForwardCountsUp(i, n, n - 1 - i);
    assert Forward(i, n, n - i) == 0;
    ForwardCompose(i, n, n - i, i);
    ForwardCountsUp(0, n, i);
  }

  /** A jump past the end is not modular: it always lands on the first quote. */
  lemma JumpPastEndResets(n: nat, k: nat)
    requires n > 0
    ensures WrapIndex(n + k, n) == 0
  {
  }

  function Abs(x: real): real {
    if x < 0.0 then -x else x
  }

  /** `minSwipeDistance`, in pixels. */
  const MinSwipeDistance: real := 50.0

  /**
   * The touchend decision: a mainly horizontal move of more than 50 pixels
   * changes the quote, to the previous one for a move to the right (-1) and to
   * the next for a move to the left (+1); anything else does nothing.
   */
  function SwipeDirection(deltaX: real, deltaY: real): (d: Option<int>)
    ensures d == Some(-1) ==> deltaX > MinSwipeDistance
    ensures d == Some(1) ==> deltaX < -MinSwipeDistance
    ensures d.Some? ==> d == Some(-1) || d == Some(1)
    ensures Abs(deltaX) > Abs(deltaY) && Abs(deltaX) > MinSwipeDistance ==> d == (if deltaX > 0.0 then Some(-1) else Some(1))
    ensures d.None? <==> !(Abs(deltaX) > Abs(deltaY) && Abs(deltaX) > MinSwipeDistance)
  {
    if Abs(deltaX) > Abs(deltaY) && Abs(deltaX) > MinSwipeDistance then
      if deltaX > 0.0 then Some(-1) else Some(1)
    else None
  }

  /** Swipes of 50 pixels or less, and swipes at least as vertical as horizontal, do nothing. */
  lemma ShortOrVerticalSwipeIgnored(deltaX: real, deltaY: real)
    requires Abs(deltaX) <= MinSwipeDistance || Abs(deltaY) >= Abs(deltaX)
    ensures SwipeDirection(deltaX, deltaY) == None
  {
  }

  /** Mirroring a swipe left to right reverses its direction, and up or down makes no difference. */
  lemma SwipeMirror(deltaX: real, deltaY: real)
    ensures SwipeDirection(-deltaX, deltaY) == match SwipeDirection(deltaX, deltaY)
                                                case None => None
                                                case Some(d) => Some(-d)
    ensures SwipeDirection(deltaX, -deltaY) == SwipeDirection(deltaX, deltaY)
  {
  }

  class Carousel {
    var currentQuoteIndex: int   // the module variable of the same name
    const quotes: array<bool>    // whether each `.quote-card` is active
    const dots: array<bool>      // whether each `.carousel-dot` is active

    ghost predicate Valid()
      reads this
    {
      quotes != dots
    }

    /** Exactly quote `i` and dot `i` are active. */
    ghost predicate Shows(i: int)
      reads this, quotes, dots
    {
      && (forall j :: 0 <= j < quotes.Length ==> (quotes[j] <==> j == i))
      && (forall j :: 0 <= j < dots.Length ==> (dots[j] <==> j == i))
    }

    /** `initQuotesCarousel`: one dot per quote, the first one active; the index starts at 0. */
    constructor (quotes: array<bool>)
      ensures Valid() && this.quotes == quotes && currentQuoteIndex == 0
      ensures fresh(dots) && dots.Length == quotes.Length
      ensures forall j :: 0 <= j < dots.Length ==> (dots[j] <==> j == 0)
    {
      this.quotes := quotes;
      currentQuoteIndex := 0;
      dots := new bool[quotes.Length](j => j == 0);
    }

    /** `showQuote`: with no quotes nothing happens; otherwise the wrapped index becomes current and is the only one shown. */
    method ShowQuote(index: int)
      requires Valid()
      modifies this`currentQuoteIndex, quotes, dots
      ensures quotes.Length == 0 ==> currentQuoteIndex == old(currentQuoteIndex) && unchanged(quotes, dots)
      ensures quotes.Length > 0 ==> currentQuoteIndex == WrapIndex(index, quotes.Length) && Shows(currentQuoteIndex)
    {
      if quotes.Length == 0 {
        return;
      }
      var i := index;
      if i >= quotes.Length {
        i := 0;
      }
      if i < 0 {
        i := quotes.Length - 1;
      }
      currentQuoteIndex := i;
      for k := 0 to quotes.Length
        invariant currentQuoteIndex == i
        invariant forall j :: 0 <= j < k ==> (quotes[j] <==> j == i)
      {
        quotes[k] := k == i;
      }
      for k := 0 to dots.Length
        invariant currentQuoteIndex == i
        invariant forall j :: 0 <= j < k ==> (dots[j] <==> j == i)
        invariant forall j :: 0 <= j < quotes.Length ==> (quotes[j] <==> j == i)
      {
        dots[k] := k == i;
      }
    }

    /** `changeQuote`: show the quote `direction` steps from the current one. */
    method ChangeQuote(direction: int)
      requires Valid()
      modifies this`currentQuoteIndex, quotes, dots
      ensures quotes.Length == 0 ==> currentQuoteIndex == old(currentQuoteIndex) && unchanged(quotes, dots)
      ensures quotes.Length > 0 ==> currentQuoteIndex == WrapIndex(old(currentQuoteIndex) + direction, quotes.Length)
      ensures quotes.Length > 0 ==> Shows(currentQuoteIndex)
    {
      ShowQuote(currentQuoteIndex + direction);
    }
  }

  /** The touch positions `addSwipeSupport` keeps between its two handlers. */
  class SwipeTracker {
    var touchStartX: real
    var touchStartY: real
    var touchEndX: real
    var touchEndY: real

    constructor ()
      ensures touchStartX == 0.0 && touchStartY == 0.0 && touchEndX == 0.0 && touchEndY == 0.0
    {
      touchStartX, touchStartY, touchEndX, touchEndY := 0.0, 0.0, 0.0, 0.0;
    }

    method TouchStart(screenX: real, screenY: real)
      modifies this`touchStartX, this`touchStartY
      ensures touchStartX == screenX && touchStartY == screenY
    {
      touchStartX := screenX;
      touchStartY := screenY;
    }

    /** `touchend`: record the end point and change the quote when the move is a swipe. */
    method TouchEnd(screenX: real, screenY: real, c: Carousel)
      requires c.Valid()
      modifies this`touchEndX, this`touchEndY, c`currentQuoteIndex, c.quotes, c.dots
      ensures touchEndX == screenX && touchEndY == screenY
      ensures SwipeDirection(screenX - touchStartX, screenY - touchStartY) == None ==>
                c.currentQuoteIndex == old(c.currentQuoteIndex) && unchanged(c.quotes, c.dots)
      ensures SwipeDirection(screenX - touchStartX, screenY - touchStartY).Some? && c.quotes.Length > 0 ==>
                var d := SwipeDirection(screenX - touchStartX, screenY - touchStartY).value;
                c.currentQuoteIndex == WrapIndex(old(c.currentQuoteIndex) + d, c.quotes.Length) && c.Shows(c.currentQuoteIndex)
      ensures c.quotes.Length == 0 ==> c.currentQuoteIndex == old(c.currentQuoteIndex) && unchanged(c.quotes, c.dots)
    {
      touchEndX := screenX;
      touchEndY := screenY;
      var deltaX := touchEndX - touchStartX;
      var deltaY := touchEndY - touchStartY;
      var d := SwipeDirection(deltaX, deltaY);
      if d.Some? {
        c.ChangeQuote(d.value);
      }
    }
  }
}

=== FILE: resolution_storage.dfy ===
/**
 * The saved resolution progress of js/enhanced-features.js
 * (`initResolutionsStorage`). The saved object `resolutions2026` maps a card's
 * index to its percentage; a missing entry reads as 0. A click on a card
 * steps its value with Progress.NextProgress, saves it, shows it on the card's
 * bar, and at 50 and 100 announces a milestone.
 *
 * The storage value is an Option: None stands for a missing entry and for
 * text that does not parse, both of which read as the empty object.
 */
module ResolutionStorage {
  import opened Wrappers
  import opened Progress

  /** The two milestones and the size of their confetti bursts. */
  datatype Milestone = Halfway | Completed {
    function ParticleCount(): (n: nat)
      ensures n == 75 || n == 150
    {
      match this
      case Halfway => 75
      case Completed => 150
    }
  }

  /** `progress[index] || 0` */
  function ValueAt(progress: map<int, int>, index: int): (v: int)
    ensures index !in progress ==> v == 0
  {
    if index in progress then progress[index] else 0
  }

  /** The saved object after a click on card `index`: that entry steps, every other one is kept. */
  function Incremented(progress: map<int, int>, index: int): (p: map<int, int>)
    ensures ValueAt(p, index) == NextProgress(ValueAt(progress, index))
    ensures forall j :: j != index ==> ValueAt(p, j) == ValueAt(progress, j)
    ensures p.Keys == progress.Keys + {index}
  {
    progress[index := NextProgress(ValueAt(progress, index))]
  }

  /** The milestone a new value announces, if any. */
  function MilestoneAt(current: int): (m: Option<Milestone>)
    ensures m == Some(Halfway) <==> current == 50
    ensures m == Some(Completed) <==> current == 100
    ensures m.None? <==> current != 50 && current != 100
  {
    if current == 100 then Some(Completed)
    else if current == 50 then Some(Halfway)
    else None
  }

  /** Starting from nothing, the k-th click on a card is halfway exactly when k mod 11 is 5, and completed when it is 10. */
  lemma MilestoneSchedule(k: nat)
    ensures MilestoneAt(Clicks(0, k)) == Some(Halfway) <==> k % 11 == 5
    ensures MilestoneAt(Clicks(0, k)) == Some(Completed) <==> k % 11 == 10
  {
    ClicksFromZero(k);
  }

  class ResolutionBoard {
    const hasBar: seq<bool>           // whether each card has its `.progress-bar-fill`
    const widths: array<int>          // each card's bar width, in percent
    var saved: Option<map<int, int>>  // what `resolutions2026` parses to; None when missing or unparsable

    ghost predicate Valid()
      reads this
    {
      |hasBar| == widths.Length
    }

    /** `getResolutionProgress` */
    function Progress(): (p: map<int, int>)
      reads this
      ensures saved.None? ==> p == map[]
    {
      saved.GetOr(map[])
    }

    constructor (hasBar: seq<bool>, saved: Option<map<int, int>>)
      ensures Valid() && this.hasBar == hasBar && this.saved == saved
      ensures fresh(widths) && forall i :: 0 <= i < widths.Length ==> widths[i] == 0
    {
      this.hasBar := hasBar;
      this.saved := saved;
      widths := new int[|hasBar|](_ => 0);
    }

    /** `loadResolutionProgress`: every card with a bar shows its saved value. */
    method LoadResolutionProgress()
      requires Valid()
      modifies widths
      ensures forall i :: 0 <= i < widths.Length && hasBar[i] ==> widths[i] == ValueAt(Progress(), i)
      ensures forall i :: 0 <= i < widths.Length && !hasBar[i] ==> widths[i] == old(widths[i])
    {
      var progress := Progress();
      for index := 0 to widths.Length
        invariant forall i :: 0 <= i < index && hasBar[i] ==> widths[i] == ValueAt(progress, i)
        invariant forall i :: 0 <= i < widths.Length && (index <= i || !hasBar[i]) ==> widths[i] == old(widths[i])
      {
        var value := ValueAt(progress, index);
        if hasBar[index] {
          widths[index] := value;
        }
      }
    }

    /**
     * `incrementProgress`: the card's entry steps and is saved, its bar shows
     * the new value, and 50 or 100 is announced.
     */
    method IncrementProgress(index: nat) returns (milestone: Option<Milestone>)
      requires Valid() && index < widths.Length
      modifies this`saved, widths
      ensures saved == Some(Incremented(old(Progress()), index))
      ensures hasBar[index] ==> widths[index] == ValueAt(Progress(), index)
      ensures forall i :: 0 <= i < widths.Length && (i != index || !hasBar[index]) ==> widths[i] == old(widths[i])
      ensures milestone == MilestoneAt(ValueAt(Progress(), index))
    {
      var progress := Progress();
      var current := ValueAt(progress, index);
      current := current + 10;
      if current > 100 {
        current := 0;
      }
      progress := progress[index := current];
      saved := Some(progress);
      if hasBar[index] {
        widths[index] := current;
      }
      if current == 50 || current == 100 {
        milestone := Some(if current == 100 then Completed else Halfway);
      } else {
        milestone := None;
      }
    }
  }
}

=== FILE: text.dfy ===
/**
 * Strings as the page's scripts see them, and `String.prototype.trim`.
 * A string is a sequence of characters; `|s|` stands for JavaScript's `s.length`.
 */
module Text {

  /** ECMAScript WhiteSpace and LineTerminator code points: what `trim` strips. */
  predicate IsSpace(c: char) {
    || ('\U{9}' <= c <= '\U{D}')
    || c == ' ' || c == '\U{A0}' || c == '\U{1680}'
    || ('\U{2000}' <= c <= '\U{200A}')
    || c == '\U{2028}' || c == '\U{2029}' || c == '\U{202F}' || c == '\U{205F}' || c == '\U{3000}'
    || c == '\U{FEFF}'
  }

  predicate AllSpace(s: string) {
    forall i :: 0 <= i < |s| ==> IsSpace(s[i])
  }

  /** A string with no white space at either end: what `trim` returns. */
  predicate Trimmed(s: string) {
    s == [] || (!IsSpace(s[0]) && !IsSpace(s[|s| - 1]))
  }

  /** Drops the leading white space (TrimStartSuffix says what is dropped). */
  function TrimStart(s: string): (r: string)
    ensures |r| <= |s|
  {
    if s != [] && IsSpace(s[0]) then TrimStart(s[1..]) else s
  }

  /** Drops the trailing white space (TrimEndPrefix says what is dropped). */
  function TrimEnd(s: string): (r: string)
    ensures |r| <= |s|
  {
    if s != [] && IsSpace(s[|s| - 1]) then TrimEnd(s[..|s| - 1]) else s
  }

  /** The result of TrimStart is the suffix of `s` that starts at its first non-space. */
  lemma {:induction false} TrimStartSuffix(s: string)
    ensures var r := TrimStart(s);
            && r == s[|s| - |r|..] && AllSpace(s[..|s| - |r|])
            && (r == [] || !IsSpace(r[0]))
  {
    if s != [] && IsSpace(s[0]) {
      TrimStartSuffix(s[1..]);
      var r := TrimStart(s);
      assert s[1..][..|s[1..]| - |r|] == s[1..|s| - |r|];
      assert forall i :: 1 <= i < |s| - |r| ==> s[i] == s[1..|s| - |r|][i - 1];
    }
  }

  /** The result of TrimEnd is the prefix of `s` that ends at its last non-space. */
  lemma {:induction false} TrimEndPrefix(s: string)
    ensures var r := TrimEnd(s);
            && r == s[..|r|] && AllSpace(s[|r|..])
            && (r == [] || !IsSpace(r[|r| - 1]))
  {
    if s != [] && IsSpace(s[|s| - 1]) {
      var t := s[..|s| - 1];
      TrimEndPrefix(t);
      var r := TrimEnd(s);
      assert t[..|r|] == s[..|r|];
      assert forall i :: |r| <= i < |s| - 1 ==> s[i] == t[|r|..][i - |r|];
    }
  }

  /** `s.trim()`: white space dropped from both ends; see TrimSplit for what is dropped. */
  function Trim(s: string): (r: string)
    ensures Trimmed(r)
    ensures |r| <= |s|
  {
    TrimStartSuffix(s);
    TrimEndPrefix(TrimStart(s));
    TrimEnd(TrimStart(s))
  }

  /** Every string is its trimmed form with white space, and only white space, around it. */
  lemma TrimSplit(s: string) returns (pre: string, post: string)
    ensures s == pre + Trim(s) + post
    ensures AllSpace(pre) && AllSpace(post)
  {
    var t := TrimStart(s);
    var r := TrimEnd(t);
    TrimStartSuffix(s);
    TrimEndPrefix(t);
    pre, post := s[..|s| - |t|], t[|r|..];
    JoinSlices(s, |s| - |t|, t, r);
  }

  lemma JoinSlices(s: string, k: nat, t: string, r: string)
    requires k <= |s| && t == s[k..] && |r| <= |t| && r == t[..|r|]
    ensures s == s[..k] + r + t[|r|..]
  {
    assert t == r + t[|r|..];
    assert s == s[..k] + t;
  }

  lemma {:induction false} TrimStartOfSpaces(pre: string, s: string)
    requires AllSpace(pre)
    ensures TrimStart(pre + s) == TrimStart(s)
  {
    if pre != [] {
      assert (pre + s)[0] == pre[0] && IsSpace(pre[0]);
      assert (pre + s)[1..] == pre[1..] + s;
      TrimStartOfSpaces(pre[1..], s);
    } else {
      assert pre + s == s;
    }
  }

  lemma {:induction false} TrimEndOfSpaces(s: string, post: string)
    requires AllSpace(post)
    ensures TrimEnd(s + post) == TrimEnd(s)
  {
    if post != [] {
      assert (s + post)[..|s + post| - 1] == s + post[..|post| - 1];
      TrimEndOfSpaces(s, post[..|post| - 1]);
    } else {
      assert s + post == s;
    }
  }

  /** Leading white space is dropped without looking past the first non-space. */
  lemma {:induction false} TrimStartAppend(s: string, t: string)
    requires !AllSpace(s)
    ensures TrimStart(s + t) == TrimStart(s) + t
  {
    if IsSpace(s[0]) {
      assert (s + t)[1..] == s[1..] + t;
      TrimStartAppend(s[1..], t);
    }
  }

  /** White space alone loses all of its characters to TrimStart. */
  lemma BlankTrimsToEmpty(s: string)
    requires AllSpace(s)
    ensures TrimStart(s) == []
  {
    TrimStartSuffix(s);
  }

  /** Padding a string with white space on either side does not change what `trim` returns. */
  lemma TrimPadding(pre: string, s: string, post: string)
    requires AllSpace(pre) && AllSpace(post)
    ensures Trim(pre + s + post) == Trim(s)
  {
    assert pre + s + post == pre + (s + post);
    TrimStartOfSpaces(pre, s + post);
    if AllSpace(s) {
      assert AllSpace(s + post);
      BlankTrimsToEmpty(s + post);
      BlankTrimsToEmpty(s);
    } else {
      TrimStartAppend(s, post);
      TrimEndOfSpaces(TrimStart(s), post);
    }
  }

  /** `trim` leaves a string without white space at its ends as it is. */
  lemma TrimOfTrimmed(s: string)
    requires Trimmed(s)
    ensures Trim(s) == s
  {
  }

  /** Every string is its trimmed form padded with white space, and `trim` is idempotent. */
  lemma TrimIdempotent(s: string)
    ensures Trim(Trim(s)) == Trim(s)
  {
    TrimOfTrimmed(Trim(s));
  }
}

=== FILE: theme.dfy ===
/**
 * The dark/light switch of js/enhanced-features.js (`initThemeToggle`). The
 * theme lives in the `data-theme` attribute of the document element and in
 * the saved value `theme`; a missing or empty value means "dark". The icon
 * shows a moon for "dark" and a sun for anything else.
 *
 * The confetti burst on a change is decoration and is not modelled.
 */
module Theme {
  import opened Wrappers

  const Dark: string := "dark"
  const Light: string := "light"
  const Moon: string := "\U{1F319}"
  const Sun: string := "\U{2600}\U{FE0F}"

  /** `value || 'dark'`: an absent or empty string falls back to "dark". */
  function OrDark(value: Option<string>): (t: string)
    ensures t != []
    ensures value.None? || value.value == [] ==> t == Dark
    ensures value.Some? && value.value != [] ==> t == value.value
  {
    if value.None? || value.value == [] then Dark else value.value
  }

  /** The theme after a click: "light" from "dark", "dark" from anything else. */
  function Toggled(current: Option<string>): (t: string)
    ensures t == Dark || t == Light
    ensures t == Light <==> OrDark(current) == Dark
  {
    if OrDark(current) == Dark then Light else Dark
  }

  /** `applyTheme`'s icon. */
  function IconFor(theme: string): (icon: string)
    ensures icon == Moon <==> theme == Dark
  {
    if theme == Dark then Moon else Sun
  }

  /** Two clicks bring "dark" (also when absent) or "light" back; any other value ends up "light". */
  lemma ToggleTwice(current: Option<string>)
    ensures Toggled(Some(Toggled(current))) == (if OrDark(current) == Dark then Dark else Light)
  {
  }

  class ThemeToggle {
    const hasIcon: bool             // the toggle and its `.theme-icon` exist
    var dataTheme: Option<string>   // `data-theme` on the document element
    var saved: Option<string>       // the saved value `theme`
    var icon: string                // the icon's text

    /** The icon matches the theme in force. */
    ghost predicate Valid()
      reads this
    {
      dataTheme.Some? && (hasIcon ==> icon == IconFor(dataTheme.value))
    }

    /** `initThemeToggle`: the saved theme, or "dark", is applied; nothing is saved. */
    constructor (hasIcon: bool, saved: Option<string>, icon: string)
      ensures Valid() && this.hasIcon == hasIcon && this.saved == saved
      ensures dataTheme == Some(OrDark(saved))
      ensures !hasIcon ==> this.icon == icon
    {
      this.hasIcon := hasIcon;
      this.saved := saved;
      var theme := OrDark(saved);
      dataTheme := Some(theme);
      this.icon := if hasIcon then IconFor(theme) else icon;
    }

    /** `applyTheme` */
    method ApplyTheme(theme: string)
      modifies this`dataTheme, this`icon
      ensures Valid() && dataTheme == Some(theme)
      ensures !hasIcon ==> icon == old(icon)
    {
      dataTheme := Some(theme);
      if hasIcon {
        icon := IconFor(theme);
      }
    }

    /** The click handler: the other theme is applied and saved. */
    method Click()
      modifies this
      ensures Valid()
      ensures dataTheme == Some(Toggled(old(dataTheme))) && saved == dataTheme
      ensures !hasIcon ==> icon == old(icon)
    {
      var newTheme := Toggled(dataTheme);
      ApplyTheme(newTheme);
      saved := Some(newTheme);
    }
  }
}

=== FILE: validation.dfy ===
/**
 * The contact-form field validators of js/interactions.js: `validateName`,
 * `validateEmail` and `validateMessage`. Each trims its input and checks a
 * length window; the e-mail check adds the address grammar and a ban on "..".
 *
 * The address grammar is the "valid e-mail address" production of the WHATWG
 * HTML Living Standard (section 4.10.5.1.5, the E-mail state of input
 * type=email): a non-empty local part over a fixed character set, "@", then
 * one or more dot-separated labels of 1 to 63 letters, digits or hyphens that
 * start and end with a letter or digit. It is stated twice below: once as the
 * regular expression reads (RegexEmail, a ghost predicate that guesses where
 * the parts split) and once as a checker that scans for the separators
 * (EmailShape); EmailShapeIsRegex proves the two agree on every string.
 */
module Validation {
  import opened Text

  // ---------------------------------------------------------------- characters

  predicate IsAlnum(c: char) {
    ('a' <= c <= 'z') || ('A' <= c <= 'Z') || ('0' <= c <= '9')
  }

  /** `[a-zA-Z0-9.!#$%&'*+\/=?^_`{|}~-]`: the characters of the local part. */
  predicate IsLocalChar(c: char) {
    IsAlnum(c) || c in ".!#$%&'*+/=?^_`{|}~-"
  }

  /** `[a-zA-Z0-9-]`: the characters inside a label. */
  predicate IsLabelChar(c: char) {
    IsAlnum(c) || c == '-'
  }

  /** `[a-zA-Z0-9](?:[a-zA-Z0-9-]{0,61}[a-zA-Z0-9])?`: one domain label. */
  predicate IsLabel(w: string) {
    || (|w| == 1 && IsAlnum(w[0]))
    || (2 <= |w| <= 63 && IsAlnum(w[0]) && IsAlnum(w[|w| - 1])
        && forall i :: 1 <= i < |w| - 1 ==> IsLabelChar(w[i]))
  }

  predicate AllLocalChars(s: string) {
    forall i :: 0 <= i < |s| ==> IsLocalChar(s[i])
  }

  // ------------------------------------------- the regular expression, as it reads

  /** `label(?:\.label)*`: a first label, then any number of dot-prefixed labels. */
  ghost predicate RegexDomain(d: string)
    decreases |d|, 1
  {
    exists j :: 1 <= j <= |d| && IsLabel(d[..j]) && RegexDomainTail(d[j..])
  }

  /** `(?:\.label)*` */
  ghost predicate RegexDomainTail(w: string)
    decreases |w|, 0
  {
    w == [] || (w[0] == '.' && RegexDomain(w[1..]))
  }

  /** `^local+@domain$` */
  ghost predicate RegexEmail(s: string) {
    exists i :: 0 < i < |s| && AllLocalChars(s[..i]) && s[i] == '@' && RegexDomain(s[i + 1..])
  }

  // ------------------------------------------------------- the scanning checker

  /** The position of the first `c` in `s`, or `|s|` when there is none. */
  function IndexOf(s: string, c: char): (k: nat)
    ensures k <= |s|
    ensures forall i :: 0 <= i < k ==> s[i] != c
    ensures k < |s| ==> s[k] == c
  {
    if s == [] then 0
    else if s[0] == c then 0
    else 1 + IndexOf(s[1..], c)
  }

  /** The domain split at each '.', every piece a label. */
  function DomainShape(d: string): bool
    decreases |d|
  {
    var k := IndexOf(d, '.');
    if k == |d| then IsLabel(d) else IsLabel(d[..k]) && DomainShape(d[k + 1..])
  }

  /** The address split at its first '@' into a local part and a domain. */
  function EmailShape(s: string): bool {
    var at := IndexOf(s, '@');
    0 < at < |s| && AllLocalChars(s[..at]) && DomainShape(s[at + 1..])
  }

  /** `s.includes('..')`: two dots side by side somewhere in `s`. */
  predicate HasDoubleDot(s: string) {
    |s| >= 2 && ((s[0] == '.' && s[1] == '.') || HasDoubleDot(s[1..]))
  }

  /** A label holds no '.', so the first '.' of a domain ends its first label. */
  lemma LabelBeforeIndex(d: string, j: nat, c: char)
    requires j <= |d| && forall i :: 0 <= i < j ==> d[i] != c
    ensures IndexOf(d, c) >= j
  {
  }

  /** A label that opens the domain holds no '.', so the first '.' comes after it. */
  lemma LabelHasNoDot(d: string, j: nat)
    requires j <= |d| && IsLabel(d[..j])
    ensures IndexOf(d, '.') >= j
  {
    forall i | 0 <= i < j
      ensures d[i] != '.'
    {
      assert d[i] == d[..j][i];
    }
    LabelBeforeIndex(d, j, '.');
  }

  /** The scanning domain checker accepts exactly the domains the regular expression matches. */
  lemma DomainShapeIsRegex(d: string)
    ensures DomainShape(d) <==> RegexDomain(d)
  {
    if DomainShape(d) {
      DomainShapeMatches(d);
    }
    if RegexDomain(d) {
      RegexDomainPassesShape(d);
    }
  }

  lemma {:induction false} DomainShapeMatches(d: string)
    requires DomainShape(d)
    ensures RegexDomain(d)
    decreases |d|
  {
    var k := IndexOf(d, '.');
    if k == |d| {
      assert d[..|d|] == d;
      assert RegexDomainTail(d[|d|..]);
    } else {
      DomainShapeMatches(d[k + 1..]);
      assert d[k..][1..] == d[k + 1..];
      assert RegexDomainTail(d[k..]);
    }
  }

  lemma {:induction false} RegexDomainPassesShape(d: string)
    requires RegexDomain(d)
    ensures DomainShape(d)
    decreases |d|
  {
    var j :| 1 <= j <= |d| && IsLabel(d[..j]) && RegexDomainTail(d[j..]);
    LabelHasNoDot(d, j);
    if j == |d| {
      assert d[..j] == d;
    } else {
      var k := IndexOf(d, '.');
      assert d[j] == d[j..][0] == '.';
      assert k == j;
      assert d[j..][1..] == d[k + 1..];
      RegexDomainPassesShape(d[k + 1..]);
    }
  }

  /** The scanning checker accepts exactly the strings the regular expression matches. */
  lemma EmailShapeIsRegex(s: string)
    ensures EmailShape(s) <==> RegexEmail(s)
  {
    if EmailShape(s) {
      EmailShapeMatches(s);
    }
    if RegexEmail(s) {
      var i :| 0 < i < |s| && AllLocalChars(s[..i]) && s[i] == '@' && RegexDomain(s[i + 1..]);
      RegexMatchPassesShape(s, i);
    }
  }

  lemma EmailShapeMatches(s: string)
    requires EmailShape(s)
    ensures RegexEmail(s)
  {
    var at := IndexOf(s, '@');
    DomainShapeIsRegex(s[at + 1..]);
  }

  lemma RegexMatchPassesShape(s: string, i: nat)
    requires 0 < i < |s| && AllLocalChars(s[..i]) && s[i] == '@' && RegexDomain(s[i + 1..])
    ensures EmailShape(s)
  {
    assert forall k :: 0 <= k < i ==> s[k] == s[..i][k];
    LabelBeforeIndex(s, i, '@');
    DomainShapeIsRegex(s[i + 1..]);
  }

  // ------------------------------------------------------------------ validators

  /** `validateName`: the trimmed name has 2 to 50 characters; any characters are allowed. */
  function ValidateName(name: string): (ok: bool)
    ensures ok ==> 2 <= |name|
  {
    var trimmed := Trim(name);
    2 <= |trimmed| <= 50
  }

  /** `validateEmail`: trimmed length 5 to 100, the address grammar, and no "..". */
  function ValidateEmail(email: string): (ok: bool)
    ensures ok ==> 5 <= |email|
  {
    var trimmed := Trim(email);
    5 <= |trimmed| <= 100 && EmailShape(trimmed) && !HasDoubleDot(trimmed)
  }

  /** `validateMessage`: the trimmed message has 10 to 1000 characters. */
  function ValidateMessage(message: string): (ok: bool)
    ensures ok ==> 10 <= |message|
  {
    var trimmed := Trim(message);
    10 <= |trimmed| <= 1000
  }

  /**
   * Any input is some text `t` with no white space at its ends, padded with
   * white space. A name is accepted exactly when `t` has 2 to 50 characters,
   * whatever they are.
   */
  lemma NameAcceptance(pre: string, t: string, post: string)
    requires AllSpace(pre) && AllSpace(post) && Trimmed(t)
    ensures ValidateName(pre + t + post) <==> 2 <= |t| <= 50
  {
    TrimPadding(pre, t, post);
    TrimOfTrimmed(t);
  }

  /** A message is accepted exactly when its text without the padding has 10 to 1000 characters. */
  lemma MessageAcceptance(pre: string, t: string, post: string)
    requires AllSpace(pre) && AllSpace(post) && Trimmed(t)
    ensures ValidateMessage(pre + t + post) <==> 10 <= |t| <= 1000
  {
    TrimPadding(pre, t, post);
    TrimOfTrimmed(t);
  }

  /**
   * An address is accepted exactly when its text without the padding has 5 to
   * 100 characters, matches the address grammar and holds no "..".
   */
  lemma EmailAcceptance(pre: string, t: string, post: string)
    requires AllSpace(pre) && AllSpace(post) && Trimmed(t)
    ensures ValidateEmail(pre + t + post) <==> 5 <= |t| <= 100 && RegexEmail(t) && !HasDoubleDot(t)
  {
    TrimPadding(pre, t, post);
    TrimOfTrimmed(t);
    EmailShapeIsRegex(t);
  }

  /** The empty string, and white space alone, pass none of the three validators. */
  lemma BlankFailsAll(s: string)
    requires AllSpace(s)
    ensures !ValidateName(s) && !ValidateEmail(s) && !ValidateMessage(s)
  {
    TrimPadding(s, [], []);
    assert s + [] + [] == s;
  }
}

=== FILE: wish_storage.dfy ===
/**
 * The saved wishes of js/enhanced-features.js (`initWishesStorage`). Wishes
 * are kept as a list under `wishes2026`, oldest first; the display shows one
 * card per wish, newest on top, because each card is inserted before the
 * first. Deleting a wish filters it out of the list by id and removes the
 * first card carrying that id.
 *
 * The storage value is an Option: None stands for a missing entry and for
 * text that does not parse, both of which read as the empty list. `Date.now()`
 * and `new Date().toISOString()` are parameters.
 */
module WishStorage {
  import opened Text
  import opened Wrappers

  datatype Wish = Wish(id: int, text: string, date: string)

  // -------------------------------------------------------------- list helpers

  function Reverse(s: seq<Wish>): (r: seq<Wish>)
    ensures |r| == |s|
  {
    if s == [] then [] else Reverse(s[1..]) + [s[0]]
  }

  /** `wishes.filter(w => w.id !== wishId)` */
  function Without(s: seq<Wish>, id: int): (r: seq<Wish>)
    ensures |r| <= |s|
  {
    if s == [] then []
    else if s[0].id == id then Without(s[1..], id)
    else [s[0]] + Without(s[1..], id)
  }

  /** The list with its first wish of the given id removed, if there is one. */
  function RemoveFirst(s: seq<Wish>, id: int): (r: seq<Wish>)
    ensures |r| == |s| || |r| == |s| - 1
  {
    if s == [] then []
    else if s[0].id == id then s[1..]
    else [s[0]] + RemoveFirst(s[1..], id)
  }

  /** How many wishes carry the id. */
  function Count(s: seq<Wish>, id: int): nat {
    if s == [] then 0 else (if s[0].id == id then 1 else 0) + Count(s[1..], id)
  }

  ghost predicate UniqueIds(s: seq<Wish>) {
    forall id :: Count(s, id) <= 1
  }

  // ------------------------------------------------------------------- lemmas

  lemma {:induction false} ReverseAppend(a: seq<Wish>, b: seq<Wish>)
    ensures Reverse(a + b) == Reverse(b) + Reverse(a)
  {
    if a == [] {
      assert a + b == b;
    } else {
      assert (a + b)[1..] == a[1..] + b;
      ReverseAppend(a[1..], b);
    }
  }

  /** Reversing twice gives the list back. */
  lemma {:induction false} ReverseReverse(s: seq<Wish>)
    ensures Reverse(Reverse(s)) == s
  {
    if s != [] {
      ReverseReverse(s[1..]);
      ReverseAppend(Reverse(s[1..]), [s[0]]);
      assert [s[0]] + s[1..] == s;
    }
  }

  lemma {:induction false} WithoutAppend(a: seq<Wish>, b: seq<Wish>, id: int)
    ensures Without(a + b, id) == Without(a, id) + Without(b, id)
  {
    if a == [] {
      assert a + b == b;
    } else {
      assert (a + b)[1..] == a[1..] + b;
      WithoutAppend(a[1..], b, id);
    }
  }

  lemma {:induction false} CountAppend(a: seq<Wish>, b: seq<Wish>, id: int)
    ensures Count(a + b, id) == Count(a, id) + Count(b, id)
  {
    if a == [] {
      assert a + b == b;
    } else {
      assert (a + b)[1..] == a[1..] + b;
      CountAppend(a[1..], b, id);
    }
  }

  /** Deleting removes every wish with the id and keeps every other wish, in order. */
  lemma {:induction false} WithoutRemovesExactly(s: seq<Wish>, id: int)
    ensures Count(Without(s, id), id) == 0
    ensures forall other :: other != id ==> Count(Without(s, id), other) == Count(s, other)
    ensures Count(s, id) == 0 ==> Without(s, id) == s
  {
    if s != [] {
      WithoutRemovesExactly(s[1..], id);
      if s[0].id != id {
        assert [s[0]] + s[1..] == s;
      }
    }
  }

  /** Deleting twice is deleting once. */
  lemma WithoutIdempotent(s: seq<Wish>, id: int)
    ensures Without(Without(s, id), id) == Without(s, id)
  {
    WithoutRemovesExactly(s, id);
    WithoutRemovesExactly(Without(s, id), id);
  }

  /** Filtering commutes with reversing: the display order does not matter to a delete. */
  lemma {:induction false} ReverseWithout(s: seq<Wish>, id: int)
    ensures Reverse(Without(s, id)) == Without(Reverse(s), id)
  {
    if s != [] {
      ReverseWithout(s[1..], id);
      WithoutAppend(Reverse(s[1..]), [s[0]], id);
      if s[0].id != id {
        ReverseAppend([s[0]], Without(s[1..], id));
      } else {
        assert Without(Reverse(s), id) == Without(Reverse(s[1..]), id) + [];
      }
    }
  }

  lemma {:induction false} CountReverse(s: seq<Wish>, id: int)
    ensures Count(Reverse(s), id) == Count(s, id)
  {
    if s != [] {
      CountReverse(s[1..], id);
      CountAppend(Reverse(s[1..]), [s[0]], id);
    }
  }

  /** With at most one wish of the id, removing the first one is removing them all. */
  lemma {:induction false} RemoveFirstIsWithout(s: seq<Wish>, id: int)
    requires Count(s, id) <= 1
    ensures RemoveFirst(s, id) == Without(s, id)
  {
    if s != [] {
      RemoveFirstIsWithout(s[1..], id);
      if s[0].id == id {
        WithoutRemovesExactly(s[1..], id);
      }
    }
  }

  /** Appending a wish whose id is not yet used keeps the ids unique. */
  lemma AppendFreshKeepsUnique(s: seq<Wish>, w: Wish)
    requires UniqueIds(s) && Count(s, w.id) == 0
    ensures UniqueIds(s + [w])
  {
    forall id
      ensures Count(s + [w], id) <= 1
    {
      CountAppend(s, [w], id);
    }
  }

  // ------------------------------------------------------------------ the store

  class WishStore {
    const hasInput: bool             // `wishInput` exists
    const hasDisplay: bool           // `wishesDisplay` exists
    var input: string                // the input's value
    var storage: Option<seq<Wish>>   // what `wishes2026` parses to; None when missing or unparsable
    var display: seq<Wish>           // the cards, top first, each showing its wish

    /** `getWishesFromStorage` */
    function Wishes(): (ws: seq<Wish>)
      reads this
      ensures storage.None? ==> ws == []
    {
      storage.GetOr([])
    }

    /** The display shows the saved list, newest first. */
    ghost predicate InSync()
      reads this
    {
      hasDisplay ==> display == Reverse(Wishes())
    }

    constructor (hasInput: bool, hasDisplay: bool, storage: Option<seq<Wish>>)
      ensures this.hasInput == hasInput && this.hasDisplay == hasDisplay && this.storage == storage
      ensures input == [] && display == []
    {
      this.hasInput := hasInput;
      this.hasDisplay := hasDisplay;
      this.storage := storage;
      input := [];
      display := [];
    }

    /** `addWishToDisplay`: a card on top, when there is a display. */
    method AddWishToDisplay(wish: Wish)
      modifies this`display
      ensures hasDisplay ==> display == [wish] + old(display)
      ensures !hasDisplay ==> display == old(display)
    {
      if hasDisplay {
        display := [wish] + display;
      }
    }

    /** `loadWishes`: the display is emptied and every saved wish is added in list order. */
    method LoadWishes()
      modifies this`display
      ensures InSync()
      ensures !hasDisplay ==> display == old(display)
    {
      var wishes := Wishes();
      if hasDisplay {
        display := [];
      }
      for k := 0 to |wishes|
        invariant hasDisplay ==> display == Reverse(wishes[..k])
        invariant !hasDisplay ==> display == old(display)
      {
        AddWishToDisplay(wishes[k]);
        assert wishes[..k + 1] == wishes[..k] + [wishes[k]];
        ReverseAppend(wishes[..k], [wishes[k]]);
      }
      assert wishes[..|wishes|] == wishes;
    }

    /**
     * `saveWish`: a blank input, or no input, does nothing; otherwise the
     * trimmed text is appended to the list with the clock as its id, shown on
     * top, and the input is emptied.
     */
    method SaveWish(now: int, isoDate: string)
      modifies this`storage, this`display, this`input
      ensures !hasInput || Trim(old(input)) == [] ==> storage == old(storage) && display == old(display) && input == old(input)
      ensures hasInput && Trim(old(input)) != [] ==>
                var w := Wish(now, Trim(old(input)), isoDate);
                && storage == Some(old(Wishes()) + [w])
                && display == (if hasDisplay then [w] + old(display) else old(display))
                && input == []
      ensures old(InSync()) ==> InSync()
      ensures old(UniqueIds(Wishes())) && Count(old(Wishes()), now) == 0 ==> UniqueIds(Wishes())
    {
      if !hasInput {
        return;
      }
      var wishText := Trim(input);
      if wishText == [] {
        return;
      }
      var wishes := Wishes();
      var newWish := Wish(now, wishText, isoDate);
      storage := Some(wishes + [newWish]);
      ReverseAppend(wishes, [newWish]);
      if UniqueIds(wishes) && Count(wishes, now) == 0 {
        AppendFreshKeepsUnique(wishes, newWish);
      }
      AddWishToDisplay(newWish);
      input := [];
    }

    /** `deleteWish`: the id is filtered out of the saved list and its first card removed. */
    method DeleteWish(wishId: int)
      modifies this`storage, this`display
      ensures storage == Some(Without(old(Wishes()), wishId))
      ensures display == RemoveFirst(old(display), wishId)
      ensures Count(Wishes(), wishId) == 0
      ensures old(InSync()) && old(UniqueIds(Wishes())) ==> InSync() && UniqueIds(Wishes())
    {
      var before := Wishes();
      storage := Some(Without(before, wishId));
      display := RemoveFirst(display, wishId);
      WithoutRemovesExactly(before, wishId);
      if old(InSync()) && UniqueIds(before) {
        if hasDisplay {
          CountReverse(before, wishId);
          RemoveFirstIsWithout(Reverse(before), wishId);
          ReverseWithout(before, wishId);
        }
      }
    }
  }

  /**
   * Two wishes saved in the same millisecond share an id; deleting one then
   * empties the saved list but leaves a card on the display, which no longer
   * matches it.
   */
  lemma SameMillisecondDesyncs(a: Wish, b: Wish)
    requires a.id == b.id
    ensures Without([a, b], a.id) == []
    ensures RemoveFirst(Reverse([a, b]), a.id) == [a]
  {
    assert Reverse([a, b]) == [b, a] by {
      assert [a, b][1..] == [b];
      assert Reverse([b]) == [b] by {
        assert [b][1..] == [];
      }
    }
    assert [b, a][1..] == [a];
  }
}

=== FILE: wish_wall.dfy ===
/**
 * The wish wall of js/interactions.js: `addWish` and the submit-button
 * handler installed by `initWishes`. A wish is accepted when its trimmed text
 * has at least 3 characters and its text at most 200; an accepted wish becomes
 * a card at the top of the wall, with one of six emojis drawn at random.
 *
 * `sanitizeInput` (from a helper module that is not part of this model) is a
 * parameter; `Math.random()` is passed in as a draw in [0, 1).
 */
module WishWall {
  import opened Text
  import opened Wrappers

  datatype WishCard = WishCard(emoji: string, text: string)

  /** What `addWish` tells the user (`showTempMessage`): too short, too long, or sent. */
  datatype WishVerdict = TooShort | TooLong | Accepted

  /** The six emojis a card can carry. */
  const Emojis: seq<string> := ["\U{2728}", "\U{1F31F}", "\U{2B50}", "\U{1F4AB}", "\U{1F38A}", "\U{1F389}"]

  /** `emojis[Math.floor(Math.random() * emojis.length)]` */
  function PickEmoji(draw: real): (e: string)
    requires 0.0 <= draw < 1.0
    ensures e in Emojis
  {
    var k := (draw * |Emojis| as real).Floor;
    Emojis[k]
  }

  /** The length checks of `addWish`: the trimmed text for the minimum, the text as given for the maximum. */
  function CheckWish(wishText: string): (v: WishVerdict)
    ensures v == Accepted ==> 3 <= |wishText| <= 200
    ensures |wishText| < 3 ==> v == TooShort
  {
    if |Trim(wishText)| < 3 then TooShort
    else if |wishText| > 200 then TooLong
    else Accepted
  }

  /** For a text that is already trimmed (what the submit handler passes), the window is exactly 3..200. */
  lemma TrimmedWishWindow(t: string)
    requires Trimmed(t)
    ensures CheckWish(t) == Accepted <==> 3 <= |t| <= 200
    ensures CheckWish(t) == TooShort <==> |t| < 3
  {
    TrimOfTrimmed(t);
  }

  /** Padding counts toward the 200-character limit but not toward the 3-character minimum. */
  lemma PaddedWishWindow(pre: string, t: string, post: string)
    requires AllSpace(pre) && AllSpace(post) && Trimmed(t)
    ensures CheckWish(pre + t + post) == Accepted <==> 3 <= |t| && |pre| + |t| + |post| <= 200
  {
    TrimPadding(pre, t, post);
    TrimOfTrimmed(t);
  }

  class Wall {
    const hasDisplay: bool      // whether the page has the `wishesDisplay` element
    var cards: seq<WishCard>    // the wall's cards, top first
    var input: string           // the value of the `wishInput` field

    constructor (hasDisplay: bool)
      ensures this.hasDisplay == hasDisplay && cards == [] && input == []
    {
      this.hasDisplay := hasDisplay;
      cards := [];
      input := [];
    }

    /**
     * `addWish`: without a wall nothing happens (None); otherwise the verdict,
     * and an accepted wish is put on top of the wall with its sanitized text.
     */
    method AddWish(wishText: string, emojiDraw: real, sanitize: string -> string) returns (verdict: Option<WishVerdict>)
      requires 0.0 <= emojiDraw < 1.0
      modifies this`cards
      ensures !hasDisplay ==> verdict == None && cards == old(cards)
      ensures hasDisplay ==> verdict == Some(CheckWish(wishText))
      ensures verdict == Some(Accepted) ==> cards == [WishCard(PickEmoji(emojiDraw), sanitize(wishText))] + old(cards)
      ensures verdict != Some(Accepted) ==> cards == old(cards)
    {
      if !hasDisplay {
        return None;
      }
      var v := CheckWish(wishText);
      if v != Accepted {
        return Some(v);
      }
      var card := WishCard(PickEmoji(emojiDraw), sanitize(wishText));
      cards := [card] + cards;
      verdict := Some(Accepted);
    }

    /**
     * The submit-button handler: a blank field is ignored; otherwise the trimmed
     * text goes to `addWish` and the field is emptied, whatever the verdict.
     */
    method SubmitClick(emojiDraw: real, sanitize: string -> string) returns (verdict: Option<WishVerdict>)
      requires 0.0 <= emojiDraw < 1.0
      modifies this`cards, this`input
      ensures Trim(old(input)) == [] ==> verdict == None && cards == old(cards) && input == old(input)
      ensures Trim(old(input)) != [] ==> input == [] && verdict == (if hasDisplay then Some(CheckWish(Trim(old(input)))) else None)
      ensures verdict == Some(Accepted) ==> cards == [WishCard(PickEmoji(emojiDraw), sanitize(Trim(old(input))))] + old(cards)
      ensures verdict != Some(Accepted) ==> cards == old(cards)
    {
      var wishText := Trim(input);
      verdict := None;
      if wishText != [] {
        verdict := AddWish(wishText, emojiDraw, sanitize);
        input := [];
      }
    }
  }
}

=== FILE: wrappers.dfy ===
/** Optional values, standing for JavaScript's null / undefined. */
module Wrappers {

  datatype Option<+T> = None | Some(value: T) {

    /** The value, or `default` when absent (JavaScript's `x || default` on a value that is never falsy). */
    function GetOr(default: T): T {
      match this
      case Some(v) => v
      case None => default
    }
  }
}
